=== FILE: README.md ===
# ChoobinV2 interpreter core in Dafny

This project models the statement interpreter of ChoobinV2 (`choobinv2.py`,
class `ChoobinInterpreter`). ChoobinV2 is a small line-oriented language. A line is stripped,
classified by its keyword prefix (`say`, `set`, `repeat`, `for`, `while`,
`if`, `def`, `class`, `new`, `try`, `import`, otherwise a function call)
and handed to that keyword's handler. The handlers read and write four
tables (global variables, functions, classes, modules) and a local scope
that belongs to the block being run. Bodies of loops, branches, functions
and classes are themselves interpreted recursively.

Modules, in dependency order:

- `Base` (`base.dfy`): `Option`, `Result` and the four error kinds the
  handlers raise (`SyntaxError`, `NameError`, `ValueError`, `ImportError`).
- `Text` (`text.dfy`): the host string operations the interpreter relies
  on. These are `strip()` (with the host's whitespace set), `split(',')`
  and `int(...)` on base-10 text, each with its laws: stripping ignores
  padding and is idempotent; split and join are inverse; rendered
  integers parse back.
- `Dispatch` (`dispatch.dfy`): the classification of a raw line by the
  chain of `startswith` tests, proved equal to a first-match rule over the
  keyword priority list. It also shows the consequence of having no word
  boundary (`settle()` goes to `set`).
- `Environment` (`environment.dfy`): values, parsed statements, the
  environment, the state (environment, local scope, output) and the
  abstract host. It also holds the "extends" relation that every run
  satisfies.
- `Evaluator` (`evaluator.dfy`): `evaluate`, covering literals, then
  locals, then globals, then the host evaluator over the merged
  bindings. It also holds argument evaluation and the scope-building
  dictionary comprehension.
- `Interp` (`interp.dfy`): the big-step semantics `Exec` of each
  statement, with a fuel bound in place of the host's call stack.
- `InterpLaws` (`laws.dfy`): the properties of the semantics.

A statement is modelled after its keyword's pattern has extracted the
operands. Expressions, parameter lists, argument lists and the range of a
`for` stay text, exactly as the handlers receive them. A line that does not
fit its keyword's pattern is the statement `Malformed(k)`, which raises
`SyntaxError`. An outcome is `Done(state)`, `Raised(kind, state)` or
`OutOfFuel`. A `Raised` outcome keeps the state reached at the failure,
because nothing a statement did before failing is undone.

## Model

| member | source | states |
|---|---|---|
| Text.Strip | choobinv2.py:159 | The stripped line has no whitespace at either end and is no longer than the line; a line without surrounding whitespace is unchanged |
| Text.StripLeftSpec | choobinv2.py:159 | The left strip is a suffix of the line, everything removed is whitespace, and the result does not start with whitespace |
| Text.StripRightSpec | choobinv2.py:159 | The right strip is a prefix of the text, everything removed is whitespace, and the result does not end with whitespace |
| Text.StripIgnoresPadding | choobinv2.py:159 | Any whitespace put before and after a line does not change its stripped form |
| Text.StripIdempotent | choobinv2.py:159 | Stripping a stripped line changes nothing |
| Text.Split | choobinv2.py:99 | `str.split` on one separator character, always at least one piece; its behaviour is stated by SplitDropsSeparator, JoinSplit, SplitJoin, SplitWithoutSeparator and SplitAtSeparator |
| Text.SplitDropsSeparator | choobinv2.py:99 | No piece produced by splitting on ',' contains a comma |
| Text.JoinSplit | choobinv2.py:99 | Joining the pieces of a split with the separator gives the original text back |
| Text.SplitJoin | choobinv2.py:99 | Splitting the join of separator-free pieces gives exactly those pieces back |
| Text.SplitWithoutSeparator | choobinv2.py:99 | A text without the separator splits into one piece, itself (so an empty argument list is one empty argument) |
| Text.SplitAtSeparator | choobinv2.py:57 | One separator between two texts splits exactly there: the pieces are those of the left text followed by those of the right |
| Text.ParseInt | choobinv2.py:57 | `int(...)` of a text: the ASCII whitespace and non-ASCII `isspace` characters around it skipped, then an optional sign and decimal digits with single underscores between digits; stated by ParseShowInt, ParseIntIgnoresPadding, ParseIntKeepsSeparator and ShowIntHasNoComma |
| Text.ParseIntIgnoresPadding | choobinv2.py:57 | A rendered integer padded on either side with whitespace `int(...)` skips (as in `range(0, 3)`) reads back as the integer |
| Text.ParseIntKeepsSeparator | choobinv2.py:57 | `int(...)` does not skip the information separators U+001C..U+001F that `strip()` removes: `"\x1c0"` is rejected although it strips to `0` |
| Text.DigitsValueShowNat | choobinv2.py:57 | The decimal digits of a natural number read back as that number |
| Text.ParseShowInt | choobinv2.py:57 | `int(...)` of the usual decimal rendering of any integer, negative ones included, gives the integer back |
| Text.ShowIntHasNoComma | choobinv2.py:57 | A rendered integer contains no comma, so it is never split inside a range text |
| Dispatch.Classify | choobinv2.py:158-183 | The dispatcher: which handler a line goes to; stated by ClassifyIsFirstMatch, DispatchPriority, DispatchFallback, ClassifyIgnoresPadding and KeywordNamedCallIsMisrouted |
| Dispatch.ClassifyIsFirstMatch | choobinv2.py:158-183 | The dispatcher's chain of prefix tests on the stripped line equals the first-match rule over the keyword priority list |
| Dispatch.FirstMatchSpec | choobinv2.py:160-183 | First match over distinct keywords: the result is keyword i exactly when its word prefixes the text and no earlier word does; it is the call fallback exactly when no word prefixes it |
| Dispatch.PriorityDistinct | choobinv2.py:160-181 | Each keyword is tested once and the call handler is never tested by prefix |
| Dispatch.DispatchPriority | choobinv2.py:160-181 | A line goes to the handler of the i-th keyword exactly when that keyword prefixes the stripped line and none tested before it does |
| Dispatch.DispatchFallback | choobinv2.py:182-183 | A line goes to the call handler exactly when no keyword prefixes the stripped line |
| Dispatch.ClassifyIgnoresPadding | choobinv2.py:159 | Whitespace around a line does not change which handler receives it |
| Dispatch.KeywordNamedCallIsMisrouted | choobinv2.py:160-183 | A call whose function name begins with a keyword (`settle()`, `format(x)`, `newton()`) never reaches the call handler, because the prefix tests have no word boundary |
| Evaluator.Evaluate | choobinv2.py:11-22 | Every evaluation failure surfaces as `ValueError` |
| Evaluator.EvaluateFailsOnlyInHost | choobinv2.py:13-22 | Evaluation fails exactly when the text is no literal, is bound in neither scope, and the host evaluator rejects it over the merged bindings |
| Evaluator.EvaluateQuoted | choobinv2.py:14-15 | A quoted text evaluates to the text between the quotes, whatever the scopes hold |
| Evaluator.EvaluateLoneQuote | choobinv2.py:14-15 | A lone double quote counts as a literal and evaluates to the empty text |
| Evaluator.EvaluateLookupOrder | choobinv2.py:16-20 | A non-literal bound in either scope evaluates to its binding, the local one first; otherwise the host decides over globals overridden by locals |
| Evaluator.LocalsShadowGlobals | choobinv2.py:16-19 | A locally bound name evaluates the same whatever the globals are |
| Evaluator.EvalArgs | choobinv2.py:104 | The argument values of a call or instantiation, left to right, stopping at the first failure; stated by EvalArgsSpec |
| Evaluator.EvalArgsSpec | choobinv2.py:104 | Arguments evaluate left to right; the list succeeds exactly when every argument evaluates, then position i holds argument i's value; a failure is `ValueError` |
| Evaluator.Bind | choobinv2.py:104 | The scope the dictionary comprehension builds from keys and values; stated by BindSpec |
| Evaluator.BindSpec | choobinv2.py:104 | The comprehension's scope binds exactly the keys, each to the value at the key's last position |
| Interp.ParseRange | choobinv2.py:57 | A range text that cannot be unpacked into two integers raises `ValueError` |
| Interp.ParseRangeSpec | choobinv2.py:57 | A range text is accepted exactly when it is one comma between two comma-free integer literals, and its bounds are then their values |
| Interp.StepFrame | choobinv2.py:24-39 | A say or set (and likewise def, class, import) never touches the local scope; say appends one output value; set, def, class and import each add or overwrite only the entry they name in their own table, every other entry keeping its value; nothing changes when it raises; only a malformed line raises `SyntaxError` and only an import `ImportError` |
| Interp.Step | choobinv2.py:24-39 | The statements without a body: say and set here, and def (lines 85-93), class (111-118) and import (146-156); never runs out of fuel; stated by StepFrame, SayAppendsOneValue, SetWritesOneGlobal, DefWritesOneFunction, ClassWritesOneClass and ImportRecordsHandle |
| Interp.Exec | choobinv2.py:158-183 | One statement, after dispatch, over the parsed statement; stated by ExecExtends (frame) and ExecMonotone (fuel) |
| Interp.ExecRepeat | choobinv2.py:41-49 | `repeat n`: n runs of the body, each from where the last left off, stopping at the first that does not finish; stated by RepeatZero, RepeatSplit, RepeatOnce and RepeatSayLiteral |
| Interp.ExecFor | choobinv2.py:51-62 | `for x in range(a,b)`: the body once per index, the variable bound in the running scope; stated by ForRejectsBadRange, ForOneIteration, ForSplit, ForSaysItsIndex, ForBindsLast and ForLeavesLastIndex |
| Interp.ExecWhile | choobinv2.py:64-72 | `while`: the condition tested before every run of the body; stated by WhileExitsOnFalsy and WhileUnrollsToIf |
| Interp.ExecIf | choobinv2.py:74-83 | `if`: the then-branch on a truthy condition, otherwise the else-branch if any; stated by IfElseOnlyWhenFalsy and IfSameBranches |
| Interp.BuildScope | choobinv2.py:104 | A fresh scope from keys and argument texts; stated by BuildScopeSpec |
| Interp.CallScope | choobinv2.py:104 | A call's scope keyed by the stripped parameter names; stated by CallScopeSpec |
| Interp.NewScope | choobinv2.py:127 | An instance scope keyed by `self.` and each stripped argument; stated by NewScopeSpec |
| Interp.BuildScopeSpec | choobinv2.py:104 | A body's fresh scope binds exactly the keys, each (last occurrence) to its stripped argument's value in the caller's scope; it fails, always with `ValueError`, exactly when some argument fails |
| Interp.CallScopeSpec | choobinv2.py:104 | A call's scope binds exactly the stripped parameter names to the stripped arguments' values; failure exactly when some argument fails, always `ValueError` |
| Interp.NewScopeSpec | choobinv2.py:127 | An instance scope binds exactly `self.` followed by each stripped argument to that argument's value; failure exactly when some argument fails, always `ValueError` |
| Interp.ExecCall | choobinv2.py:95-109 | A call of a defined function; stated by CallChecks, CallRunsBodyInFreshScope, CallIgnoresCallerLocals and EmptyArgumentsFailCall |
| Interp.ExecNew | choobinv2.py:120-132 | An instantiation of a declared class; stated by NewRunsBodyInSelfScope and EmptyArgumentsFailNew |
| Interp.ExecTry | choobinv2.py:134-144 | `try`/`except`: the handler runs on any language error of the body, from the state it left; stated by TryRunsHandler and TryKeepsEffects |
| Interp.RunInScope | choobinv2.py:104-105 | A body run in its own scope hands the caller back its own local scope, whether the body finishes or raises |
| InterpLaws.ExecExtends | choobinv2.py:158-183 | Every run that does not run out of fuel keeps all output already written, removes no table entry, and rebinds only the local names its `for` loops bind |
| InterpLaws.ExecMonotone | choobinv2.py:158-183 | More fuel never changes the outcome of a run that finished or raised |
| InterpLaws.NoForKeepsLocals | choobinv2.py:51-62 | A statement without a `for` leaves the caller's local scope exactly as it was, whether it finishes or raises |
| InterpLaws.SayAppendsOneValue | choobinv2.py:24-30 | `say` appends exactly the value of its expression to the output and changes nothing else, or raises `ValueError` and changes nothing |
| InterpLaws.SetWritesOneGlobal | choobinv2.py:32-39 | `set` writes exactly the named global to the expression's value, even when the name is bound locally; the local scope, output and other tables are unchanged |
| InterpLaws.DefWritesOneFunction | choobinv2.py:85-93 | `def` registers the comma-split parameter pieces and the body under the name, replacing any earlier entry, and changes nothing else |
| InterpLaws.DefLastWins | choobinv2.py:91 | Defining a name twice is the same as defining it only the second time |
| InterpLaws.ClassWritesOneClass | choobinv2.py:111-118 | `class` registers the body under the name, replacing any earlier entry, and changes nothing else |
| InterpLaws.ClassLastWins | choobinv2.py:116 | Declaring a class twice is the same as declaring it only the second time |
| InterpLaws.ImportRecordsHandle | choobinv2.py:146-156 | `import` adds or overwrites only the named module entry with the loaded module, every other module entry, the other tables, the local scope and the output unchanged; a module that cannot be loaded raises `ImportError` and changes nothing |
| InterpLaws.RepeatZero | choobinv2.py:46-47 | `repeat 0` runs nothing and changes nothing, whatever the body |
| InterpLaws.RepeatSplit | choobinv2.py:46-47 | Repeating m + n times is repeating m times, then n times from where the first runs left off |
| InterpLaws.RepeatOnce | choobinv2.py:46-47 | One repetition is one run of the body |
| InterpLaws.RepeatSayLiteral | choobinv2.py:41-47 | Repeating a `say` of a literal n times writes the literal's text n times and changes nothing else |
| InterpLaws.ForRejectsBadRange | choobinv2.py:57 | A range text that is not exactly two integer literals raises `ValueError` before the variable is bound or the body runs |
| InterpLaws.RangeRoundTrip | choobinv2.py:57 | The range text of two rendered integers separated by a comma parses back to those integers |
| InterpLaws.ForOneIteration | choobinv2.py:58-60 | One iteration binds the variable to the lower bound in the running scope, then runs the body |
| InterpLaws.ForSplit | choobinv2.py:58-60 | Iterating over [lo, hi) is iterating over [lo, mid), then over [mid, hi) from where the first part left off |
| InterpLaws.ForSaysItsIndex | choobinv2.py:58-60 | A loop that says its own variable writes lo, ..., hi - 1 in ascending order and leaves the variable bound to the last; over an empty range it changes nothing |
| InterpLaws.ForBindsLast | choobinv2.py:58-60 | A loop over a non-empty range that finishes leaves its variable bound to hi - 1 unless the body rebinds it |
| InterpLaws.ForLeavesLastIndex | choobinv2.py:57-60 | After a finished `for` over a non-empty range the caller's scope binds the variable to the last index; over an empty range nothing changes |
| InterpLaws.WhileExitsOnFalsy | choobinv2.py:69-70 | A `while` that finishes does so on a condition that evaluates to a falsy value in the final state |
| InterpLaws.WhileUnrollsToIf | choobinv2.py:69-70 | A `while` is an `if` on its condition with the body, followed, when that finishes, by the loop again |
| InterpLaws.IfElseOnlyWhenFalsy | choobinv2.py:77-81 | The else-branch runs only on a falsy condition; a truthy one runs the then-branch; a failing condition raises `ValueError` |
| InterpLaws.IfSameBranches | choobinv2.py:77-81 | With the same statement in both branches only whether the condition evaluates matters, not its truth value |
| InterpLaws.CallChecks | choobinv2.py:99-107 | Calling an undefined function raises `NameError`; a wrong number of comma-separated arguments raises `ValueError`; neither changes anything |
| InterpLaws.CallRunsBodyInFreshScope | choobinv2.py:100-105 | A call passing its checks raises `ValueError` if an argument fails, else runs the body in the parameters-only scope from the caller's environment and output, then restores the caller's scope |
| InterpLaws.EvalArgsCongruence | choobinv2.py:104 | Scopes that give every argument the same value give the same argument list |
| InterpLaws.CallIgnoresCallerLocals | choobinv2.py:104-105 | Calls do not close over the caller: two callers with equal environment and output whose scopes give the arguments the same values get the same outcome, up to their own restored scope |
| InterpLaws.NewRunsBodyInSelfScope | choobinv2.py:120-130 | Instantiating an undefined class raises `NameError`; otherwise the class body runs in the `self.`-keyed scope, or `ValueError` is raised when an argument fails |
| InterpLaws.EmptyArgumentsFailNew | choobinv2.py:120-130 | `new C()` of a declared class raises `ValueError` before the body runs, because the empty argument list is one empty argument keyed `self.` and `eval('')` fails |
| InterpLaws.EmptyArgumentsFailCall | choobinv2.py:99-107 | `f()` of a defined function raises `ValueError` whatever its parameters: the count check fails, or (as for `def f()`) the one empty argument fails to evaluate |
| InterpLaws.TryRunsHandler | choobinv2.py:139-142 | The handler runs, from the state the failure left, exactly when the body raised, and its outcome is the try's outcome; a finished body is the whole effect; so the `try` raises only when the handler raises too, with the handler's error |
| InterpLaws.TryKeepsEffects | choobinv2.py:139-142 | Nothing is rolled back: what the failed body wrote, added or rebound stays after the `try`, and the handler only adds to it |

## Left out

- Operand extraction by the handlers' regular expressions is not modelled. Statements start after extraction, and a failed match is `Malformed`, which raises `SyntaxError`. This also covers the one-line body patterns (greedy `.+`) and the lazy argument pattern of calls. One consequence is not visible in the model: in the `if` pattern (line 75) the greedy then-body swallows a following `} else { ... }`, so group 4 is never captured and the else-branch is unreachable from source text; a truthy condition runs the swallowed text as one statement and a falsy one runs nothing. IfElseOnlyWhenFalsy and IfSameBranches describe the branch logic of lines 77-81 over an `If` whose else-branch is given, not behaviour the source reaches.
- The host evaluator (`eval`) is a parameter of type `Host`, as are the truthiness of values and the module loader (`__import__`). Their own behaviour and side effects are outside the model. Every failure of `eval` becomes `ValueError`, as at `evaluate`.
- Printing is modelled as appending the value to an output sequence. Its `str()` rendering is left out.
- The interactive loop (`run`, lines 185-199) is left out. This covers the prompt, the `exit` command and the printing of uncaught errors.
- Recursion depth: the host's finite call stack is modelled by a fuel bound. Running out of fuel is `OutOfFuel`, which no `try` catches. Python's `RecursionError` would be caught by `except Exception`.
- Fuel accounting: a statement nested inside a body costs fuel. A `repeat` or `for` iteration does not, while each `while` iteration does.
- `int(...)` accepts only ASCII digits here. The host also accepts other Unicode decimal digits.
- The mutable default `local_vars={}` of `interpret` is not a separate object. The top-level scope is the `locals` field of the state, which the caller threads from one line to the next, so loop variables bound at top level persist, as in the host.
- Exceptions other than the four kinds above are left out. Examples are errors raised inside a module's own import code, or a `KeyboardInterrupt`.
- InterpLaws.EmptyArgumentsFailNew and InterpLaws.EmptyArgumentsFailCall assume that the empty name is bound in neither scope and that the host evaluator rejects the empty text. The model's `Set` takes any name, but the program's `set` pattern (`\w+`) never binds the empty name; only a blank parameter piece does, as in `def f(a, )` or `def f( )`, whose stripped piece is the empty text.

=== FILE: base.dfy ===
/** Failure-carrying values shared by every part of the interpreter. */
module Base {

  datatype Option<+T> = None | Some(value: T)

  /** The kinds of failure the interpreter raises, named after the host
      exceptions it raises for them. */
  datatype ErrKind =
    | SyntaxError   // a command's text does not fit its keyword's pattern
    | NameError     // an undefined function or class
    | ValueError    // a failed evaluation, a wrong argument count, a bad range
    | ImportError   // the module loader found nothing

  datatype Result<+T> = Ok(value: T) | Err(kind: ErrKind)
}

=== FILE: dispatch.dfy ===
/** The statement dispatcher's classification of a line: the line is
    stripped, then its prefix is tested against each keyword in a fixed
    order, the first match choosing the handler; a line matching none is a
    function call. */
module Dispatch {
  import opened Text

  datatype Keyword = Say | Set | Repeat | For | While | If | Def | Class | New | Try | Import | Call

  /** The prefix each handler is chosen by; the call handler has none. */
  function Word(k: Keyword): string {
    match k
    case Say => "say"
    case Set => "set"
    case Repeat => "repeat"
    case For => "for"
    case While => "while"
    case If => "if"
    case Def => "def"
    case Class => "class"
    case New => "new"
    case Try => "try"
    case Import => "import"
    case Call => ""
  }

  /** The keywords in the order the dispatcher tests them. */
  const Priority: seq<Keyword> := [Say, Set, Repeat, For, While, If, Def, Class, New, Try, Import]

  /** The host's `t.startswith(w)`. */
  predicate StartsWith(t: string, w: string) {
    w <= t
  }

  /** The dispatcher's chain of prefix tests on the stripped line. */
  function Classify(line: string): Keyword {
    ClassifyStripped(Strip(line))
  }

  function ClassifyStripped(t: string): Keyword {
    if StartsWith(t, "say") then Say
    else if StartsWith(t, "set") then Set
    else if StartsWith(t, "repeat") then Repeat
    else if StartsWith(t, "for") then For
    else if StartsWith(t, "while") then While
    else if StartsWith(t, "if") then If
    else if StartsWith(t, "def") then Def
    else if StartsWith(t, "class") then Class
    else if StartsWith(t, "new") then New
    else if StartsWith(t, "try") then Try
    else if StartsWith(t, "import") then Import
    else Call
  }

  /** Reference definition: the first keyword of `ks` whose word prefixes `t`. */
  function FirstMatch(ks: seq<Keyword>, t: string): Keyword
    decreases |ks|
  {
    if ks == [] then Call
    else if StartsWith(t, Word(ks[0])) then ks[0]
    else FirstMatch(ks[1..], t)
  }

  /** The chain of tests is the first-match rule over `Priority`. */
  lemma ClassifyIsFirstMatch(line: string)
    ensures Classify(line) == FirstMatch(Priority, Strip(line))
  {
    var t := Strip(line);
    var ks := Priority;
    MiddleTests(t);
    FirstMatchStep(ks, 2, t);
    FirstMatchStep(ks, 1, t);
    FirstMatchStep(ks, 0, t);
    assert ks[0..] == ks;
  }

  /** The tests from `for` on, as a first-match rule over the rest of
      `Priority`. */
  lemma MiddleTests(t: string)
    ensures FirstMatch(Priority[3..], t) ==
              if StartsWith(t, "for") then For
              else if StartsWith(t, "while") then While
              else if StartsWith(t, "if") then If
              else if StartsWith(t, "def") then Def
              else if StartsWith(t, "class") then Class
              else if StartsWith(t, "new") then New
              else if StartsWith(t, "try") then Try
              else if StartsWith(t, "import") then Import
              else Call
  {
    var ks := Priority;
    LaterTests(t);
    FirstMatchStep(ks, 6, t);
    FirstMatchStep(ks, 5, t);
    FirstMatchStep(ks, 4, t);
    FirstMatchStep(ks, 3, t);
  }

  /** The tests from `class` on. */
  lemma LaterTests(t: string)
    ensures FirstMatch(Priority[7..], t) ==
              if StartsWith(t, "class") then Class
              else if StartsWith(t, "new") then New
              else if StartsWith(t, "try") then Try
              else if StartsWith(t, "import") then Import
              else Call
  {
    var ks := Priority;
    FirstMatchStep(ks, 10, t);
    FirstMatchStep(ks, 9, t);
    FirstMatchStep(ks, 8, t);
    FirstMatchStep(ks, 7, t);
  }

  lemma FirstMatchStep(ks: seq<Keyword>, i: nat, t: string)
    requires i < |ks|
    ensures FirstMatch(ks[i..], t) ==
              if StartsWith(t, Word(ks[i])) then ks[i] else FirstMatch(ks[i + 1..], t)
  {
    assert ks[i..][1..] == ks[i + 1..];
  }

  /** The first-match rule, stated without recursion: the result is the
      keyword at position `i` exactly when its word prefixes the text and no
      earlier word does, and it is the call fallback exactly when no word
      prefixes the text. */
  lemma {:induction false} FirstMatchSpec(ks: seq<Keyword>, t: string, i: int)
    requires forall j :: 0 <= j < |ks| ==> ks[j] != Call
    requires forall j, k :: 0 <= j < k < |ks| ==> ks[j] != ks[k]
    ensures 0 <= i < |ks| ==>
              (FirstMatch(ks, t) == ks[i] <==>
                 StartsWith(t, Word(ks[i])) && forall j :: 0 <= j < i ==> !StartsWith(t, Word(ks[j])))
    ensures FirstMatch(ks, t) == Call <==> forall j :: 0 <= j < |ks| ==> !StartsWith(t, Word(ks[j]))
    decreases |ks|
  {
    if ks != [] {
      var ks' := ks[1..];
      FirstMatchSpec(ks', t, i - 1);
      if StartsWith(t, Word(ks[0])) {
        assert FirstMatch(ks, t) == ks[0];
        if 0 < i < |ks| {
          assert ks[0] != ks[i];
        }
      } else {
        assert FirstMatch(ks, t) == FirstMatch(ks', t);
        if 0 < i < |ks| {
          assert ks'[i - 1] == ks[i];
          assert forall j :: 0 < j < |ks| ==> ks[j] == ks'[j - 1];
        }
        assert forall j :: 0 < j < |ks| ==> ks[j] == ks'[j - 1];
        FirstMatchIn(ks', t);
      }
    }
  }

  lemma {:induction false} FirstMatchIn(ks: seq<Keyword>, t: string)
    ensures FirstMatch(ks, t) == Call || FirstMatch(ks, t) in ks
    decreases |ks|
  {
    if ks != [] && !StartsWith(t, Word(ks[0])) {
      FirstMatchIn(ks[1..], t);
    }
  }

  /** Dispatch priority: a line goes to the handler of the `i`-th keyword
      exactly when that keyword prefixes the stripped line and none of the
      keywords tested before it does. */
  lemma DispatchPriority(line: string, i: int)
    requires 0 <= i < |Priority|
    ensures Classify(line) == Priority[i] <==>
              (StartsWith(Strip(line), Word(Priority[i])) &&
               forall j :: 0 <= j < i ==> !StartsWith(Strip(line), Word(Priority[j])))
  {
    ClassifyIsFirstMatch(line);
    PriorityDistinct();
    FirstMatchSpec(Priority, Strip(line), i);
  }

  /** Fallback: a line goes to the call handler exactly when no keyword
      prefixes the stripped line. */
  lemma DispatchFallback(line: string)
    ensures Classify(line) == Call <==>
              forall j :: 0 <= j < |Priority| ==> !StartsWith(Strip(line), Word(Priority[j]))
  {
    ClassifyIsFirstMatch(line);
    PriorityDistinct();
    FirstMatchSpec(Priority, Strip(line), -1);
  }

  /** The position of a keyword in `Priority`. */
  function IndexOf(k: Keyword): (i: nat)
    requires k != Call
    ensures i < |Priority| && Priority[i] == k
  {
    match k
    case Say => 0
    case Set => 1
    case Repeat => 2
    case For => 3
    case While => 4
    case If => 5
    case Def => 6
    case Class => 7
    case New => 8
    case Try => 9
    case Import => 10
  }

  /** Each keyword is tested once, and the call handler is not tested. */
  lemma PriorityDistinct()
    ensures forall j :: 0 <= j < |Priority| ==> Priority[j] != Call
    ensures forall j, k :: 0 <= j < k < |Priority| ==> Priority[j] != Priority[k]
  {
    assert forall j :: 0 <= j < |Priority| ==> Priority[j] != Call && IndexOf(Priority[j]) == j;
  }

  /** Whitespace around a line does not change its handler. */
  lemma ClassifyIgnoresPadding(pre: string, line: string, post: string)
    requires AllSpace(pre) && AllSpace(post)
    ensures Classify(pre + line + post) == Classify(line)
  {
    StripIgnoresPadding(pre, line, post);
  }

  /** The prefix tests have no word boundary: a call whose function name
      merely begins with a keyword is sent to that keyword's handler and
      never reaches the call handler (so `settle()` is handled as `set`,
      `format(x)` as `for`, `newton()` as `new`). */
  lemma KeywordNamedCallIsMisrouted(k: Keyword, rest: string)
    requires k != Call
    requires rest == [] || !IsSpace(rest[|rest| - 1])
    ensures Classify(Word(k) + rest) != Call
  {
    var line := Word(k) + rest;
    assert Trimmed(line);
    assert StartsWith(line, Word(k));
    assert Priority[IndexOf(k)] == k;
    DispatchFallback(line);
  }
}

=== FILE: environment.dfy ===
/** The interpreter's data: values, parsed statements, the environment of
    four tables, the per-block local scope, and the host capabilities the
    interpreter calls but does not implement. */
module Environment {
  import opened Base
  import Dispatch

  /** A value of the language. Whatever the host evaluator produces that is
      neither a string, an integer nor a boolean is an opaque `Other`. */
  datatype Value = Str(s: string) | Int(i: int) | Bool(b: bool) | Other(id: nat)

  /** An opaque module reference produced by the host module loader. */
  datatype Handle = Handle(id: nat)

  /** A statement after its keyword's pattern has extracted its operands.
      Expressions, parameter lists, argument lists and the range of a `for`
      stay text, exactly as the handlers receive them; a braced body is one
      statement. */
  datatype Stmt =
    | Say(expr: string)
    | Set(name: string, expr: string)
    | Repeat(count: nat, body: Stmt)
    | For(name: string, range: string, body: Stmt)
    | While(cond: string, body: Stmt)
    | If(cond: string, thn: Stmt, els: Option<Stmt>)
    | Def(name: string, params: string, body: Stmt)
    | Call(name: string, args: string)
    | Class(name: string, body: Stmt)
    | New(name: string, args: string)
    | Try(body: Stmt, handler: Stmt)
    | Import(name: string)
      /** A line whose text does not fit the pattern of the handler it was
          dispatched to. */
    | Malformed(keyword: Dispatch.Keyword)

  /** A registered function: its parameter pieces as split from the
      parameter text (not yet stripped) and its body. */
  datatype FunDef = FunDef(params: seq<string>, body: Stmt)

  type Locals = map<string, Value>

  /** The state that outlives a single statement. */
  datatype Env = Env(
    variables: map<string, Value>,
    functions: map<string, FunDef>,
    classes: map<string, Stmt>,
    modules: map<string, Handle>)

  /** Everything a statement can read or change: the environment, the
      local scope of the block being run, and the output written so far. */
  datatype State = State(env: Env, locals: Locals, out: seq<Value>)

  /** The host capabilities, left uninterpreted: the generic expression
      evaluator (given the text and the merged bindings, a value or a
      failure), the truth value of a value, and the module loader. */
  datatype Host = Host(
    eval: (string, map<string, Value>) -> Option<Value>,
    truthy: Value -> bool,
    load: string -> Option<Handle>)

  /** Every table of `b` has at least the names of the same table of `a`. */
  predicate EnvExtends(a: Env, b: Env) {
    && a.variables.Keys <= b.variables.Keys
    && a.functions.Keys <= b.functions.Keys
    && a.classes.Keys <= b.classes.Keys
    && a.modules.Keys <= b.modules.Keys
  }

  /** The two scopes hold the same bindings at every name outside `names`. */
  ghost predicate AgreeOutside(l1: Locals, l2: Locals, names: set<string>) {
    forall k :: k !in names ==> (k in l1 <==> k in l2) && (k in l1 ==> l1[k] == l2[k])
  }

  /** `b` is a state reachable from `a` by running a statement that may
      rebind only the local names in `names`: the output only grows, no
      table loses an entry, and the other local bindings are untouched. */
  ghost predicate Extends(a: State, b: State, names: set<string>) {
    && a.out <= b.out
    && EnvExtends(a.env, b.env)
    && AgreeOutside(a.locals, b.locals, names)
  }

  lemma ExtendsRefl(a: State)
    ensures Extends(a, a, {})
  {
  }

  lemma ExtendsTrans(a: State, b: State, c: State, n1: set<string>, n2: set<string>, n: set<string>)
    requires Extends(a, b, n1) && Extends(b, c, n2)
    requires n1 <= n && n2 <= n
    ensures Extends(a, c, n)
  {
  }
}

=== FILE: evaluator.dfy ===
/** The expression adapter: quoted literals, then the local scope, then the
    global variables, then the host evaluator over the merged bindings. Also
    the argument evaluation and scope construction used by calls and
    instantiation. */
module Evaluator {
  import opened Base
  import opened Text
  import opened Environment

  /** Text that starts and ends with a double quote (a lone `"` counts). */
  predicate IsLiteral(e: string) {
    |e| >= 1 && e[0] == '"' && e[|e| - 1] == '"'
  }

  /** The inner text of a literal, without escape processing; for the lone
      `"` the inner text is empty, as the host's slice `e[1:-1]` gives. */
  function LiteralText(e: string): string
    requires IsLiteral(e)
  {
    if |e| >= 2 then e[1..|e| - 1] else ""
  }

  /** The bindings the host evaluator sees: globals overridden by locals. */
  function Merged(globals: map<string, Value>, locals: Locals): map<string, Value> {
    globals + locals
  }

  /** Evaluates an expression. Only the host evaluator can fail, and every
      failure surfaces as `ValueError`. */
  function Evaluate(h: Host, globals: map<string, Value>, locals: Locals, e: string): (r: Result<Value>)
    ensures r.Err? ==> r.kind == ValueError
  {
    if IsLiteral(e) then Ok(Str(LiteralText(e)))
    else if e in locals then Ok(locals[e])
    else if e in globals then Ok(globals[e])
    else match h.eval(e, Merged(globals, locals))
      case Some(v) => Ok(v)
      case None => Err(ValueError)
  }

  /** Evaluation fails only on text that is no literal, names no binding
      of either scope, and that the host evaluator rejects. */
  lemma EvaluateFailsOnlyInHost(h: Host, globals: map<string, Value>, locals: Locals, e: string)
    ensures Evaluate(h, globals, locals, e).Err? <==>
              !IsLiteral(e) && e !in Merged(globals, locals) && h.eval(e, Merged(globals, locals)).None?
  {
  }

  /** Quoting text and evaluating it gives the text back, whatever the
      scopes hold. */
  lemma EvaluateQuoted(h: Host, globals: map<string, Value>, locals: Locals, t: string)
    ensures Evaluate(h, globals, locals, "\"" + t + "\"") == Ok(Str(t))
  {
    var e := "\"" + t + "\"";
    assert e[1..|e| - 1] == t;
  }

  /** A lone double quote is a literal of the empty text. */
  lemma EvaluateLoneQuote(h: Host, globals: map<string, Value>, locals: Locals)
    ensures Evaluate(h, globals, locals, "\"") == Ok(Str(""))
  {
  }

  /** Lookup order: for a name bound in the merged view, evaluation returns
      that binding — the local one when both scopes bind the name — without
      consulting the host; otherwise the host decides on the merged view. */
  lemma EvaluateLookupOrder(h: Host, globals: map<string, Value>, locals: Locals, e: string)
    requires !IsLiteral(e)
    ensures e in locals ==> Evaluate(h, globals, locals, e) == Ok(locals[e])
    ensures e in Merged(globals, locals) ==> Evaluate(h, globals, locals, e) == Ok(Merged(globals, locals)[e])
    ensures e !in Merged(globals, locals) ==>
              (Evaluate(h, globals, locals, e).Ok? <==> h.eval(e, Merged(globals, locals)).Some?)
    ensures e !in Merged(globals, locals) && h.eval(e, Merged(globals, locals)).Some? ==>
              Evaluate(h, globals, locals, e) == Ok(h.eval(e, Merged(globals, locals)).value)
  {
  }

  /** A local binding shadows the global one: changing the globals does not
      change what a locally bound name evaluates to. */
  lemma LocalsShadowGlobals(h: Host, g1: map<string, Value>, g2: map<string, Value>, locals: Locals, e: string)
    requires e in locals
    ensures Evaluate(h, g1, locals, e) == Evaluate(h, g2, locals, e)
  {
  }

  /** Evaluates argument texts left to right, stopping at the first failure. */
  function EvalArgs(h: Host, globals: map<string, Value>, locals: Locals, es: seq<string>): Result<seq<Value>>
    decreases |es|
  {
    if es == [] then Ok([])
    else match Evaluate(h, globals, locals, es[0])
      case Err(k) => Err(k)
      case Ok(v) =>
        match EvalArgs(h, globals, locals, es[1..])
        case Err(k) => Err(k)
        case Ok(vs) => Ok([v] + vs)
  }

  /** Argument evaluation succeeds exactly when every argument evaluates,
      and then yields each argument's value at its position; a failure is
      always `ValueError`. */
  lemma {:induction false} EvalArgsSpec(h: Host, globals: map<string, Value>, locals: Locals, es: seq<string>)
    ensures var r := EvalArgs(h, globals, locals, es);
            && (r.Ok? ==> |r.value| == |es|)
            && (r.Ok? ==> forall i :: 0 <= i < |es| ==> Evaluate(h, globals, locals, es[i]) == Ok(r.value[i]))
            && (r.Err? <==> exists i :: 0 <= i < |es| && Evaluate(h, globals, locals, es[i]).Err?)
            && (r.Err? ==> r.kind == ValueError)
    decreases |es|
  {
    if es != [] {
      EvalArgsSpec(h, globals, locals, es[1..]);
      assert forall i :: 1 <= i < |es| ==> es[i] == es[1..][i - 1];
      var r := EvalArgs(h, globals, locals, es);
      if Evaluate(h, globals, locals, es[0]).Ok? && r.Err? {
        var i :| 0 <= i < |es[1..]| && Evaluate(h, globals, locals, es[1..][i]).Err?;
        assert Evaluate(h, globals, locals, es[i + 1]).Err?;
      }
    }
  }

  /** Every piece stripped. */
  function StripAll(ps: seq<string>): (r: seq<string>)
    ensures |r| == |ps|
    ensures forall i :: 0 <= i < |ps| ==> r[i] == Strip(ps[i])
  {
    seq(|ps|, i requires 0 <= i < |ps| => Strip(ps[i]))
  }

  /** The instance-scope key of an argument: its own stripped text
      behind `self.`. */
  function SelfKey(arg: string): string {
    "self." + Strip(arg)
  }

  function SelfKeys(args: seq<string>): (r: seq<string>)
    ensures |r| == |args|
    ensures forall i :: 0 <= i < |args| ==> r[i] == SelfKey(args[i])
  {
    seq(|args|, i requires 0 <= i < |args| => SelfKey(args[i]))
  }

  /** No later key repeats the key at position `i`. */
  predicate LastOccurrence(keys: seq<string>, i: int)
    requires 0 <= i < |keys|
  {
    forall j :: i < j < |keys| ==> keys[j] != keys[i]
  }

  /** A fresh scope built key by key in order, as a dictionary
      comprehension builds it: a later key overwrites an earlier equal one. */
  function Bind(keys: seq<string>, vals: seq<Value>): Locals
    requires |keys| == |vals|
    decreases |keys|
  {
    if keys == [] then map[]
    else
      var n := |keys| - 1;
      Bind(keys[..n], vals[..n])[keys[n] := vals[n]]
  }

  /** The scope binds exactly the keys, each to the value at the key's last
      position. */
  lemma {:induction false} BindSpec(keys: seq<string>, vals: seq<Value>)
    requires |keys| == |vals|
    ensures Bind(keys, vals).Keys == set i | 0 <= i < |keys| :: keys[i]
    ensures forall i :: 0 <= i < |keys| && LastOccurrence(keys, i) ==> Bind(keys, vals)[keys[i]] == vals[i]
    decreases |keys|
  {
    if keys != [] {
      var n := |keys| - 1;
      BindSpec(keys[..n], vals[..n]);
      BindStep(keys, vals, Bind(keys[..n], vals[..n]));
    }
  }

  lemma BindStep(keys: seq<string>, vals: seq<Value>, m0: Locals)
    requires |keys| == |vals| && |keys| > 0
    requires var n := |keys| - 1;
             && m0.Keys == (set i | 0 <= i < n :: keys[..n][i])
             && forall i :: 0 <= i < n && LastOccurrence(keys[..n], i) ==> m0[keys[..n][i]] == vals[..n][i]
    ensures var n := |keys| - 1;
            var m := m0[keys[n] := vals[n]];
            && m.Keys == (set i | 0 <= i < |keys| :: keys[i])
            && forall i :: 0 <= i < |keys| && LastOccurrence(keys, i) ==> m[keys[i]] == vals[i]
  {
    var n := |keys| - 1;
    var m := m0[keys[n] := vals[n]];
    var prefix := keys[..n];
    assert forall i :: 0 <= i < n ==> prefix[i] == keys[i];
    assert (set i | 0 <= i < n :: prefix[i]) == (set i | 0 <= i < n :: keys[i]);
    assert (set i | 0 <= i < |keys| :: keys[i]) == (set i | 0 <= i < n :: keys[i]) + {keys[n]};
    forall i | 0 <= i < |keys| && LastOccurrence(keys, i)
      ensures m[keys[i]] == vals[i]
    {
      if i < n {
        assert LastOccurrence(prefix, i);
        assert keys[i] != keys[n];
      }
    }
  }
}

=== FILE: interp.dfy ===
/** The statement semantics: big-step execution of one statement against
    the environment, the local scope of the running block and the output,
    with a fuel bound standing in for the host's finite call stack. */
module Interp {
  import opened Base
  import opened Text
  import opened Environment
  import opened Evaluator

  /** How a statement ends. `Raised` carries the state at the moment of the
      failure: effects made before it (output written, tables updated,
      locals rebound) are kept, since nothing is rolled back. `OutOfFuel`
      is not a failure of the language and no `try` catches it. */
  datatype Outcome = Done(st: State) | Raised(kind: ErrKind, st: State) | OutOfFuel

  /** The local names a statement may rebind in the scope it runs in: only
      `for` binds a local, and a body run by a call or an instantiation
      binds into a scope of its own. */
  function ForVars(s: Stmt): set<string> {
    match s
    case Repeat(_, b) => ForVars(b)
    case For(x, _, b) => {x} + ForVars(b)
    case While(_, b) => ForVars(b)
    case If(_, t, e) => ForVars(t) + (match e case Some(b) => ForVars(b) case None => {})
    case Try(b, hd) => ForVars(b) + ForVars(hd)
    case _ => {}
  }

  /** The bounds of `range(start,end)`: the text between the parentheses,
      split on commas, must give exactly two integer literals. */
  function ParseRange(r: string): (res: Result<(int, int)>)
    ensures res.Err? ==> res.kind == ValueError
  {
    var ps := Split(r, ',');
    if |ps| != 2 then Err(ValueError)
    else match (ParseInt(ps[0]), ParseInt(ps[1]))
      case (Some(lo), Some(hi)) => Ok((lo, hi))
      case _ => Err(ValueError)
  }

  /** `a,b` is a reading of the range text `r` as two comma-free integer
      literals around its one comma. */
  predicate RangeParts(r: string, a: string, b: string) {
    ',' !in a && ',' !in b && r == a + "," + b && ParseInt(a).Some? && ParseInt(b).Some?
  }

  /** Read back from two comma-free literals around a comma, a range gives
      their values as its bounds. */
  lemma RangePartsParse(r: string, a: string, b: string)
    requires RangeParts(r, a, b)
    ensures ParseRange(r) == Ok((ParseInt(a).value, ParseInt(b).value))
  {
    SplitWithoutSeparator(a, ',');
    SplitWithoutSeparator(b, ',');
    SplitAtSeparator(a, b, ',');
    assert r == a + [','] + b;
  }

  /** A range text parses exactly when it is one comma between two
      comma-free integer literals, and then its bounds are their values. */
  lemma ParseRangeSpec(r: string)
    ensures ParseRange(r).Ok? <==> exists a, b :: RangeParts(r, a, b)
    ensures forall a, b :: RangeParts(r, a, b) ==> ParseRange(r) == Ok((ParseInt(a).value, ParseInt(b).value))
  {
    forall a, b | RangeParts(r, a, b)
      ensures ParseRange(r) == Ok((ParseInt(a).value, ParseInt(b).value))
    {
      RangePartsParse(r, a, b);
    }
    if ParseRange(r).Ok? {
      var ps := Split(r, ',');
      JoinSplit(r, ',');
      SplitDropsSeparator(r, ',');
      assert Join(ps, ',') == ps[0] + [','] + ps[1];
      assert RangeParts(r, ps[0], ps[1]);
    }
  }

  /** Puts the caller's scope back after a body ran in a scope of its own. */
  function Restore(o: Outcome, locals: Locals): (r: Outcome)
    ensures r.OutOfFuel? <==> o.OutOfFuel?
    ensures o.Done? ==> r == Done(o.st.(locals := locals))
    ensures o.Raised? ==> r == Raised(o.kind, o.st.(locals := locals))
  {
    match o
    case Done(s) => Done(s.(locals := locals))
    case Raised(k, s) => Raised(k, s.(locals := locals))
    case OutOfFuel => OutOfFuel
  }

  /** Runs one statement; `fuel` bounds the nesting of bodies run. */
  function Exec(h: Host, s: Stmt, st: State, fuel: nat): (o: Outcome)
    decreases fuel, 0, 0
  {
    if fuel == 0 then OutOfFuel
    else
      match s
      case Repeat(n, b) => ExecRepeat(h, n, b, st, fuel - 1)
      case For(x, r, b) =>
        (match ParseRange(r)
         case Err(k) => Raised(k, st)
         case Ok(bounds) => ExecFor(h, x, bounds.0, bounds.1, b, st, fuel - 1))
      case While(c, b) => ExecWhile(h, c, b, st, fuel - 1)
      case If(c, t, e) => ExecIf(h, c, t, e, st, fuel - 1)
      case Call(f, a) => ExecCall(h, f, a, st, fuel - 1)
      case New(c, a) => ExecNew(h, c, a, st, fuel - 1)
      case Try(b, hd) => ExecTry(h, b, hd, st, fuel - 1)
      case _ => Step(h, s, st)
  }

  /** The statements that run no body: `say`, `set`, `def`, `class`,
      `import`, and a line that does not fit its pattern. Each changes at
      most one thing: one output line, or one entry of one table. */
  function Step(h: Host, s: Stmt, st: State): (o: Outcome)
    requires s.Say? || s.Set? || s.Def? || s.Class? || s.Import? || s.Malformed?
    ensures !o.OutOfFuel?
  {
    match s
    case Say(e) =>
      (match Evaluate(h, st.env.variables, st.locals, e)
       case Err(k) => Raised(k, st)
       case Ok(v) => Done(st.(out := st.out + [v])))
    case Set(x, e) =>
      (match Evaluate(h, st.env.variables, st.locals, e)
       case Err(k) => Raised(k, st)
       case Ok(v) => Done(st.(env := st.env.(variables := st.env.variables[x := v]))))
    case Def(f, ps, b) =>
      Done(st.(env := st.env.(functions := st.env.functions[f := FunDef(Split(ps, ','), b)])))
    case Class(c, b) =>
      Done(st.(env := st.env.(classes := st.env.classes[c := b])))
    case Import(m) =>
      (match h.load(m)
       case None => Raised(ImportError, st)
       case Some(hd) => Done(st.(env := st.env.(modules := st.env.modules[m := hd]))))
    case Malformed(_) => Raised(SyntaxError, st)
  }

  /** What a body-less statement may change: the local scope never; the
      output only by one `say` line; each table only by its own statement,
      which adds or overwrites the one entry it names and leaves every other
      entry as it was; and a failure changes nothing. A malformed line is
      the only source of `SyntaxError` and a failed import the only source
      of `ImportError`; `def` and `class` never fail. */
  lemma StepFrame(h: Host, s: Stmt, st: State)
    requires s.Say? || s.Set? || s.Def? || s.Class? || s.Import? || s.Malformed?
    ensures var o := Step(h, s, st);
            && o.st.locals == st.locals
            && (o.Done? && !s.Say? ==> o.st.out == st.out)
            && (o.Done? && s.Say? ==> |o.st.out| == |st.out| + 1 && o.st.out[..|st.out|] == st.out)
            && (o.Done? && !s.Set? ==> o.st.env.variables == st.env.variables)
            && (o.Done? && !s.Def? ==> o.st.env.functions == st.env.functions)
            && (o.Done? && !s.Class? ==> o.st.env.classes == st.env.classes)
            && (o.Done? && !s.Import? ==> o.st.env.modules == st.env.modules)
            && (o.Done? && s.Set? ==> o.st.env.variables.Keys == st.env.variables.Keys + {s.name})
            && (o.Done? && s.Set? ==> forall y :: y in st.env.variables && y != s.name ==> o.st.env.variables[y] == st.env.variables[y])
            && (o.Done? && s.Def? ==> o.st.env.functions.Keys == st.env.functions.Keys + {s.name})
            && (o.Done? && s.Def? ==> forall f :: f in st.env.functions && f != s.name ==> o.st.env.functions[f] == st.env.functions[f])
            && (o.Done? && s.Class? ==> o.st.env.classes.Keys == st.env.classes.Keys + {s.name})
            && (o.Done? && s.Class? ==> forall c :: c in st.env.classes && c != s.name ==> o.st.env.classes[c] == st.env.classes[c])
            && (o.Done? && s.Import? ==> o.st.env.modules.Keys == st.env.modules.Keys + {s.name})
            && (o.Done? && s.Import? ==> forall m :: m in st.env.modules && m != s.name ==> o.st.env.modules[m] == st.env.modules[m])
            && (o.Raised? ==> o.st == st)
            && (o.Raised? ==> (o.kind == SyntaxError <==> s.Malformed?) && (o.kind == ImportError <==> s.Import?))
            && (s.Def? || s.Class? ==> o.Done?)
  {
  }

  /** `while`: the condition is evaluated before every run of the body,
      and each run costs one unit of fuel. */
  function ExecWhile(h: Host, c: string, b: Stmt, st: State, fuel: nat): (o: Outcome)
    decreases fuel, 1, 0
  {
    match Evaluate(h, st.env.variables, st.locals, c)
    case Err(k) => Raised(k, st)
    case Ok(v) =>
      if !h.truthy(v) then Done(st)
      else match Exec(h, b, st, fuel)
        case Done(s1) => Exec(h, While(c, b), s1, fuel)
        case other => other
  }

  /** `if`: the then-branch on a truthy condition, otherwise the else-branch
      when there is one. */
  function ExecIf(h: Host, c: string, t: Stmt, e: Option<Stmt>, st: State, fuel: nat): (o: Outcome)
    decreases fuel, 1, 0
  {
    match Evaluate(h, st.env.variables, st.locals, c)
    case Err(k) => Raised(k, st)
    case Ok(v) =>
      if h.truthy(v) then Exec(h, t, st, fuel)
      else match e
        case Some(b) => Exec(h, b, st, fuel)
        case None => Done(st)
  }

  /** A fresh scope for a body: the arguments, stripped and evaluated in
      the caller's scope left to right, bound to `keys` position by
      position; the first failed argument is the failure. */
  function BuildScope(h: Host, st: State, keys: seq<string>, args: seq<string>): Result<Locals>
    requires |keys| == |args|
  {
    match EvalArgs(h, st.env.variables, st.locals, StripAll(args))
    case Err(k) => Err(k)
    case Ok(vs) =>
      EvalArgsSpec(h, st.env.variables, st.locals, StripAll(args));
      Ok(Bind(keys, vs))
  }

  /** The scope binds exactly the keys, each (at its last position) to
      its argument's value; it fails, always with `ValueError`, exactly
      when some argument fails to evaluate. */
  lemma BuildScopeSpec(h: Host, st: State, keys: seq<string>, args: seq<string>)
    requires |keys| == |args|
    ensures var r := BuildScope(h, st, keys, args);
            && (r.Ok? ==> r.value.Keys == set i | 0 <= i < |keys| :: keys[i])
            && (r.Ok? ==> forall i :: 0 <= i < |keys| && LastOccurrence(keys, i) ==>
                            Evaluate(h, st.env.variables, st.locals, Strip(args[i])) == Ok(r.value[keys[i]]))
            && (r.Err? <==> exists i :: 0 <= i < |args| && Evaluate(h, st.env.variables, st.locals, Strip(args[i])).Err?)
            && (r.Err? ==> r.kind == ValueError)
  {
    var es := StripAll(args);
    EvalArgsSpec(h, st.env.variables, st.locals, es);
    match EvalArgs(h, st.env.variables, st.locals, es)
    case Err(k) =>
      var i :| 0 <= i < |es| && Evaluate(h, st.env.variables, st.locals, es[i]).Err?;
      assert es[i] == Strip(args[i]);
    case Ok(vs) =>
      BindSpec(keys, vs);
      forall i | 0 <= i < |args|
        ensures Evaluate(h, st.env.variables, st.locals, Strip(args[i])) == Ok(vs[i])
      {
        assert es[i] == Strip(args[i]);
      }
  }

  /** The scope a call runs its body in: the stripped parameter names
      bound, position by position, to the stripped arguments evaluated in
      the caller's scope; nothing else. */
  function CallScope(h: Host, st: State, params: seq<string>, args: seq<string>): Result<Locals>
    requires |params| == |args|
  {
    BuildScope(h, st, StripAll(params), args)
  }

  lemma CallScopeSpec(h: Host, st: State, params: seq<string>, args: seq<string>)
    requires |params| == |args|
    ensures var r := CallScope(h, st, params, args);
            && (r.Ok? ==> r.value.Keys == set i | 0 <= i < |params| :: Strip(params[i]))
            && (r.Ok? ==> forall i :: 0 <= i < |params| && LastOccurrence(StripAll(params), i) ==>
                            Evaluate(h, st.env.variables, st.locals, Strip(args[i])) == Ok(r.value[Strip(params[i])]))
            && (r.Err? <==> exists i :: 0 <= i < |args| && Evaluate(h, st.env.variables, st.locals, Strip(args[i])).Err?)
            && (r.Err? ==> r.kind == ValueError)
  {
    var ks := StripAll(params);
    BuildScopeSpec(h, st, ks, args);
    assert (set i | 0 <= i < |ks| :: ks[i]) == set i | 0 <= i < |params| :: Strip(params[i]);
  }

  /** The scope an instantiation runs the class body in: for each argument,
      `self.` followed by the argument's own stripped text, bound to that
      text evaluated in the caller's scope. */
  function NewScope(h: Host, st: State, args: seq<string>): Result<Locals> {
    BuildScope(h, st, SelfKeys(args), args)
  }

  lemma NewScopeSpec(h: Host, st: State, args: seq<string>)
    ensures var r := NewScope(h, st, args);
            && (r.Ok? ==> r.value.Keys == set i | 0 <= i < |args| :: SelfKey(args[i]))
            && (r.Ok? ==> forall i :: 0 <= i < |args| && LastOccurrence(SelfKeys(args), i) ==>
                            Evaluate(h, st.env.variables, st.locals, Strip(args[i])) == Ok(r.value[SelfKey(args[i])]))
            && (r.Err? <==> exists i :: 0 <= i < |args| && Evaluate(h, st.env.variables, st.locals, Strip(args[i])).Err?)
            && (r.Err? ==> r.kind == ValueError)
  {
    var ks := SelfKeys(args);
    BuildScopeSpec(h, st, ks, args);
    assert (set i | 0 <= i < |ks| :: ks[i]) == set i | 0 <= i < |args| :: SelfKey(args[i]);
  }

  /** A call: look the function up, check the argument count against the
      parameter count, build the call's scope, and run the body in it. */
  function ExecCall(h: Host, f: string, a: string, st: State, fuel: nat): (o: Outcome)
    decreases fuel, 1, 0
  {
    if f !in st.env.functions then Raised(NameError, st)
    else if |st.env.functions[f].params| != |Split(a, ',')| then Raised(ValueError, st)
    else match CallScope(h, st, st.env.functions[f].params, Split(a, ','))
      case Err(k) => Raised(k, st)
      case Ok(scope) => RunInScope(h, st.env.functions[f].body, scope, st, fuel)
  }

  /** An instantiation: look the class up, build the instance scope, and
      run the class body in it. No argument count is checked. */
  function ExecNew(h: Host, c: string, a: string, st: State, fuel: nat): (o: Outcome)
    decreases fuel, 1, 0
  {
    if c !in st.env.classes then Raised(NameError, st)
    else match NewScope(h, st, Split(a, ','))
      case Err(k) => Raised(k, st)
      case Ok(scope) => RunInScope(h, st.env.classes[c], scope, st, fuel)
  }

  /** Runs a body in the given fresh scope instead of the caller's, then
      puts the caller's scope back: the body sees no caller local, and the
      caller sees none of the body's. */
  function RunInScope(h: Host, body: Stmt, scope: Locals, st: State, fuel: nat): (o: Outcome)
    ensures !o.OutOfFuel? ==> o.st.locals == st.locals
    decreases fuel, 0, 1
  {
    Restore(Exec(h, body, State(st.env, scope, st.out), fuel), st.locals)
  }

  /** `try`/`except`: the handler runs, from the state the failure left,
      exactly when the body raised. */
  function ExecTry(h: Host, b: Stmt, hd: Stmt, st: State, fuel: nat): (o: Outcome)
    decreases fuel, 1, 0
  {
    match Exec(h, b, st, fuel)
    case Done(s1) => Done(s1)
    case Raised(_, s1) => Exec(h, hd, s1, fuel)
    case OutOfFuel => OutOfFuel
  }

  /** Runs `b` `n` times in sequence, each run starting from the state the
      previous one left, stopping at the first run that does not finish. */
  function ExecRepeat(h: Host, n: nat, b: Stmt, st: State, fuel: nat): (o: Outcome)
    decreases fuel, 1, n
  {
    if n == 0 then Done(st)
    else match Exec(h, b, st, fuel)
      case Done(s1) => ExecRepeat(h, n - 1, b, s1, fuel)
      case other => other
  }

  /** Runs `b` once for each of `lo`, `lo + 1`, ..., `hi - 1` in ascending
      order, binding `x` to it in the running scope first. */
  function ExecFor(h: Host, x: string, lo: int, hi: int, b: Stmt, st: State, fuel: nat): (o: Outcome)
    decreases fuel, 1, hi - lo
  {
    if lo >= hi then Done(st)
    else match Exec(h, b, st.(locals := st.locals[x := Int(lo)]), fuel)
      case Done(s1) => ExecFor(h, x, lo + 1, hi, b, s1, fuel)
      case other => other
  }
}

=== FILE: laws.dfy ===
/** Properties of the statement semantics: what each handler promises, the
    laws relating the loop forms to each other and to `if`, the scoping
    rules of calls, the recovery rule of `try`, and the fact that fuel only
    cuts runs short and never changes how a finished run ends. */
module InterpLaws {
  import opened Base
  import opened Text
  import opened Environment
  import opened Evaluator
  import opened Interp

  // ---------------------------------------------------------------------
  // Frame: what a run may change

  /** Every run that does not run out of fuel extends the state it starts
      from: the output only grows, no table loses an entry, and the only
      local names that can change are those its `for` loops bind. */
  lemma {:induction false} ExecExtends(h: Host, s: Stmt, st: State, fuel: nat)
    requires !Exec(h, s, st, fuel).OutOfFuel?
    ensures Extends(st, Exec(h, s, st, fuel).st, ForVars(s))
    decreases fuel, 0, 0
  {
    var g := fuel - 1;
    match s
    case Repeat(n, b) =>
      assert Exec(h, s, st, fuel) == ExecRepeat(h, n, b, st, g);
      RepeatExtends(h, n, b, st, g);
    case For(x, r, b) =>
      if ParseRange(r).Ok? {
        var bounds := ParseRange(r).value;
        assert Exec(h, s, st, fuel) == ExecFor(h, x, bounds.0, bounds.1, b, st, g);
        ForExtends(h, x, bounds.0, bounds.1, b, st, g);
      } else {
        assert Exec(h, s, st, fuel) == Raised(ValueError, st);
        ExtendsRefl(st);
      }
    case While(c, b) =>
      assert Exec(h, s, st, fuel) == ExecWhile(h, c, b, st, g);
      WhileExtends(h, c, b, st, g);
    case If(c, t, e) =>
      assert Exec(h, s, st, fuel) == ExecIf(h, c, t, e, st, g);
      IfExtends(h, c, t, e, st, g);
    case Call(f, a) =>
      assert Exec(h, s, st, fuel) == ExecCall(h, f, a, st, g);
      CallExtends(h, f, a, st, g);
    case New(c, a) =>
      assert Exec(h, s, st, fuel) == ExecNew(h, c, a, st, g);
      NewExtends(h, c, a, st, g);
    case Try(b, hd) =>
      assert Exec(h, s, st, fuel) == ExecTry(h, b, hd, st, g);
      TryExtends(h, b, hd, st, g);
    case _ =>
      assert Exec(h, s, st, fuel) == Step(h, s, st);
      StepExtends(h, s, st);
  }

  lemma StepExtends(h: Host, s: Stmt, st: State)
    requires s.Say? || s.Set? || s.Def? || s.Class? || s.Import? || s.Malformed?
    ensures Extends(st, Step(h, s, st).st, {})
  {
    var o := Step(h, s, st);
    StepFrame(h, s, st);
    if o.Done? && s.Say? {
      assert st.out == o.st.out[..|st.out|];
    }
  }

  lemma {:induction false} WhileExtends(h: Host, c: string, b: Stmt, st: State, fuel: nat)
    requires !ExecWhile(h, c, b, st, fuel).OutOfFuel?
    ensures Extends(st, ExecWhile(h, c, b, st, fuel).st, ForVars(b))
    decreases fuel, 1, 0
  {
    var ev := Evaluate(h, st.env.variables, st.locals, c);
    if ev.Ok? && h.truthy(ev.value) {
      var o1 := Exec(h, b, st, fuel);
      ExecExtends(h, b, st, fuel);
      if o1.Done? {
        assert ExecWhile(h, c, b, st, fuel) == Exec(h, While(c, b), o1.st, fuel);
        WhileAgainExtends(h, c, b, st, o1.st, fuel);
      } else {
        assert ExecWhile(h, c, b, st, fuel) == o1;
      }
    } else {
      ExtendsRefl(st);
    }
  }

  lemma {:induction false} WhileAgainExtends(h: Host, c: string, b: Stmt, st: State, s1: State, fuel: nat)
    requires Extends(st, s1, ForVars(b))
    requires !Exec(h, While(c, b), s1, fuel).OutOfFuel?
    ensures Extends(st, Exec(h, While(c, b), s1, fuel).st, ForVars(b))
    decreases fuel, 0, 1
  {
    ExecExtends(h, While(c, b), s1, fuel);
    ExtendsTrans(st, s1, Exec(h, While(c, b), s1, fuel).st, ForVars(b), ForVars(b), ForVars(b));
  }

  lemma {:induction false} IfExtends(h: Host, c: string, t: Stmt, e: Option<Stmt>, st: State, fuel: nat)
    requires !ExecIf(h, c, t, e, st, fuel).OutOfFuel?
    ensures Extends(st, ExecIf(h, c, t, e, st, fuel).st, ForVars(If(c, t, e)))
    decreases fuel, 1, 0
  {
    var ev := Evaluate(h, st.env.variables, st.locals, c);
    if ev.Ok? && h.truthy(ev.value) {
      assert ExecIf(h, c, t, e, st, fuel) == Exec(h, t, st, fuel);
      BranchExtends(h, t, st, fuel, ForVars(If(c, t, e)));
    } else if ev.Ok? && e.Some? {
      assert ExecIf(h, c, t, e, st, fuel) == Exec(h, e.value, st, fuel);
      BranchExtends(h, e.value, st, fuel, ForVars(If(c, t, e)));
    } else {
      assert ExecIf(h, c, t, e, st, fuel).st == st;
      ExtendsRefl(st);
    }
  }

  lemma {:induction false} BranchExtends(h: Host, b: Stmt, st: State, fuel: nat, names: set<string>)
    requires ForVars(b) <= names
    requires !Exec(h, b, st, fuel).OutOfFuel?
    ensures Extends(st, Exec(h, b, st, fuel).st, names)
    decreases fuel, 0, 1
  {
    ExecExtends(h, b, st, fuel);
  }

  lemma {:induction false} ScopeExtends(h: Host, body: Stmt, scope: Locals, st: State, fuel: nat)
    requires !RunInScope(h, body, scope, st, fuel).OutOfFuel?
    ensures Extends(st, RunInScope(h, body, scope, st, fuel).st, {})
    decreases fuel, 0, 1
  {
    ExecExtends(h, body, State(st.env, scope, st.out), fuel);
  }

  lemma {:induction false} CallExtends(h: Host, f: string, a: string, st: State, fuel: nat)
    requires !ExecCall(h, f, a, st, fuel).OutOfFuel?
    ensures Extends(st, ExecCall(h, f, a, st, fuel).st, {})
    decreases fuel, 1, 0
  {
    if f in st.env.functions && |st.env.functions[f].params| == |Split(a, ',')| {
      var fd := st.env.functions[f];
      var sc := CallScope(h, st, fd.params, Split(a, ','));
      if sc.Ok? {
        ScopeExtends(h, fd.body, sc.value, st, fuel);
        return;
      }
    }
    ExtendsRefl(st);
  }

  lemma {:induction false} NewExtends(h: Host, c: string, a: string, st: State, fuel: nat)
    requires !ExecNew(h, c, a, st, fuel).OutOfFuel?
    ensures Extends(st, ExecNew(h, c, a, st, fuel).st, {})
    decreases fuel, 1, 0
  {
    if c in st.env.classes {
      var sc := NewScope(h, st, Split(a, ','));
      if sc.Ok? {
        ScopeExtends(h, st.env.classes[c], sc.value, st, fuel);
        return;
      }
    }
    ExtendsRefl(st);
  }

  lemma {:induction false} TryExtends(h: Host, b: Stmt, hd: Stmt, st: State, fuel: nat)
    requires !ExecTry(h, b, hd, st, fuel).OutOfFuel?
    ensures Extends(st, ExecTry(h, b, hd, st, fuel).st, ForVars(b) + ForVars(hd))
    decreases fuel, 1, 0
  {
    ExecExtends(h, b, st, fuel);
    var ob := Exec(h, b, st, fuel);
    if ob.Raised? {
      ExecExtends(h, hd, ob.st, fuel);
      ExtendsTrans(st, ob.st, ExecTry(h, b, hd, st, fuel).st, ForVars(b), ForVars(hd), ForVars(b) + ForVars(hd));
    } else {
      ExtendsTrans(st, ob.st, ob.st, ForVars(b), {}, ForVars(b) + ForVars(hd));
    }
  }

  lemma {:induction false} RepeatExtends(h: Host, n: nat, b: Stmt, st: State, fuel: nat)
    requires !ExecRepeat(h, n, b, st, fuel).OutOfFuel?
    ensures Extends(st, ExecRepeat(h, n, b, st, fuel).st, ForVars(b))
    decreases fuel, 1, n, 0
  {
    if n == 0 {
      ExtendsRefl(st);
    } else {
      var o1 := Exec(h, b, st, fuel);
      ExecExtends(h, b, st, fuel);
      if o1.Done? {
        assert ExecRepeat(h, n, b, st, fuel) == ExecRepeat(h, n - 1, b, o1.st, fuel);
        RepeatAgainExtends(h, n - 1, b, st, o1.st, fuel);
      } else {
        assert ExecRepeat(h, n, b, st, fuel) == o1;
      }
    }
  }

  lemma {:induction false} RepeatAgainExtends(h: Host, n: nat, b: Stmt, st: State, s1: State, fuel: nat)
    requires Extends(st, s1, ForVars(b))
    requires !ExecRepeat(h, n, b, s1, fuel).OutOfFuel?
    ensures Extends(st, ExecRepeat(h, n, b, s1, fuel).st, ForVars(b))
    decreases fuel, 1, n, 1
  {
    RepeatExtends(h, n, b, s1, fuel);
    ExtendsTrans(st, s1, ExecRepeat(h, n, b, s1, fuel).st, ForVars(b), ForVars(b), ForVars(b));
  }

  lemma {:induction false} ForExtends(h: Host, x: string, lo: int, hi: int, b: Stmt, st: State, fuel: nat)
    requires !ExecFor(h, x, lo, hi, b, st, fuel).OutOfFuel?
    ensures Extends(st, ExecFor(h, x, lo, hi, b, st, fuel).st, {x} + ForVars(b))
    decreases fuel, 1, hi - lo
  {
    if lo >= hi {
      ExtendsRefl(st);
    } else {
      var st0 := st.(locals := st.locals[x := Int(lo)]);
      var xs := {x} + ForVars(b);
      ExecExtends(h, b, st0, fuel);
      var s1 := Exec(h, b, st0, fuel).st;
      ExtendsTrans(st, st0, s1, {x}, ForVars(b), xs);
      if Exec(h, b, st0, fuel).Done? {
        ForExtends(h, x, lo + 1, hi, b, s1, fuel);
        ExtendsTrans(st, s1, ExecFor(h, x, lo, hi, b, st, fuel).st, xs, xs, xs);
      }
    }
  }

  /** A loop over a non-empty range that finishes leaves its variable
      bound to `hi - 1`, unless the body itself binds a loop variable of
      the same name. */
  lemma {:induction false} ForBindsLast(h: Host, x: string, lo: int, hi: int, b: Stmt, st: State, fuel: nat)
    requires lo < hi && x !in ForVars(b)
    requires ExecFor(h, x, lo, hi, b, st, fuel).Done?
    ensures var o := ExecFor(h, x, lo, hi, b, st, fuel);
            x in o.st.locals && o.st.locals[x] == Int(hi - 1)
    decreases hi - lo
  {
    var st0 := st.(locals := st.locals[x := Int(lo)]);
    var s1 := Exec(h, b, st0, fuel).st;
    assert ExecFor(h, x, lo, hi, b, st, fuel) == ExecFor(h, x, lo + 1, hi, b, s1, fuel);
    if lo + 1 < hi {
      ForBindsLast(h, x, lo + 1, hi, b, s1, fuel);
    } else {
      ExecExtends(h, b, st0, fuel);
      assert x in s1.locals && s1.locals[x] == Int(lo);
    }
  }

  // ---------------------------------------------------------------------
  // Fuel

  /** More fuel never changes the outcome of a run that finished. */
  lemma {:induction false} ExecMonotone(h: Host, s: Stmt, st: State, f1: nat, f2: nat)
    requires f1 <= f2
    requires !Exec(h, s, st, f1).OutOfFuel?
    ensures Exec(h, s, st, f2) == Exec(h, s, st, f1)
    decreases f1, 0, 0
  {
    var g1 := f1 - 1;
    var g2 := f2 - 1;
    match s
    case Repeat(n, b) => RepeatMonotone(h, n, b, st, g1, g2);
    case For(x, r, b) =>
      if ParseRange(r).Ok? {
        var bounds := ParseRange(r).value;
        ForMonotone(h, x, bounds.0, bounds.1, b, st, g1, g2);
      }
    case While(c, b) => WhileMonotone(h, c, b, st, g1, g2);
    case If(c, t, e) => IfMonotone(h, c, t, e, st, g1, g2);
    case Call(f, a) => CallMonotone(h, f, a, st, g1, g2);
    case New(c, a) => NewMonotone(h, c, a, st, g1, g2);
    case Try(b, hd) => TryMonotone(h, b, hd, st, g1, g2);
    case _ =>
  }

  lemma {:induction false} WhileMonotone(h: Host, c: string, b: Stmt, st: State, f1: nat, f2: nat)
    requires f1 <= f2
    requires !ExecWhile(h, c, b, st, f1).OutOfFuel?
    ensures ExecWhile(h, c, b, st, f2) == ExecWhile(h, c, b, st, f1)
    decreases f1, 1, 0
  {
    var ev := Evaluate(h, st.env.variables, st.locals, c);
    if ev.Ok? && h.truthy(ev.value) {
      ExecMonotone(h, b, st, f1, f2);
      if Exec(h, b, st, f1).Done? {
        ExecMonotone(h, While(c, b), Exec(h, b, st, f1).st, f1, f2);
      }
    }
  }

  lemma {:induction false} IfMonotone(h: Host, c: string, t: Stmt, e: Option<Stmt>, st: State, f1: nat, f2: nat)
    requires f1 <= f2
    requires !ExecIf(h, c, t, e, st, f1).OutOfFuel?
    ensures ExecIf(h, c, t, e, st, f2) == ExecIf(h, c, t, e, st, f1)
    decreases f1, 1, 0
  {
    var ev := Evaluate(h, st.env.variables, st.locals, c);
    if ev.Ok? {
      if h.truthy(ev.value) {
        ExecMonotone(h, t, st, f1, f2);
      } else if e.Some? {
        ExecMonotone(h, e.value, st, f1, f2);
      }
    }
  }

  lemma {:induction false} ScopeMonotone(h: Host, body: Stmt, scope: Locals, st: State, f1: nat, f2: nat)
    requires f1 <= f2
    requires !RunInScope(h, body, scope, st, f1).OutOfFuel?
    ensures RunInScope(h, body, scope, st, f2) == RunInScope(h, body, scope, st, f1)
    decreases f1, 0, 1
  {
    ExecMonotone(h, body, State(st.env, scope, st.out), f1, f2);
  }

  lemma {:induction false} CallMonotone(h: Host, f: string, a: string, st: State, f1: nat, f2: nat)
    requires f1 <= f2
    requires !ExecCall(h, f, a, st, f1).OutOfFuel?
    ensures ExecCall(h, f, a, st, f2) == ExecCall(h, f, a, st, f1)
    decreases f1, 1, 0
  {
    var args := Split(a, ',');
    if f in st.env.functions && |st.env.functions[f].params| == |args| {
      var fd := st.env.functions[f];
      var sc := CallScope(h, st, fd.params, args);
      if sc.Ok? {
        ScopeMonotone(h, fd.body, sc.value, st, f1, f2);
      }
    }
  }

  lemma {:induction false} NewMonotone(h: Host, c: string, a: string, st: State, f1: nat, f2: nat)
    requires f1 <= f2
    requires !ExecNew(h, c, a, st, f1).OutOfFuel?
    ensures ExecNew(h, c, a, st, f2) == ExecNew(h, c, a, st, f1)
    decreases f1, 1, 0
  {
    if c in st.env.classes {
      var sc := NewScope(h, st, Split(a, ','));
      if sc.Ok? {
        ScopeMonotone(h, st.env.classes[c], sc.value, st, f1, f2);
      }
    }
  }

  lemma {:induction false} TryMonotone(h: Host, b: Stmt, hd: Stmt, st: State, f1: nat, f2: nat)
    requires f1 <= f2
    requires !ExecTry(h, b, hd, st, f1).OutOfFuel?
    ensures ExecTry(h, b, hd, st, f2) == ExecTry(h, b, hd, st, f1)
    decreases f1, 1, 0
  {
    var o1 := Exec(h, b, st, f1);
    assert !o1.OutOfFuel?;
    ExecMonotone(h, b, st, f1, f2);
    if o1.Raised? {
      assert ExecTry(h, b, hd, st, f1) == Exec(h, hd, o1.st, f1);
      ExecMonotone(h, hd, o1.st, f1, f2);
    }
  }

  lemma {:induction false} RepeatMonotone(h: Host, n: nat, b: Stmt, st: State, f1: nat, f2: nat)
    requires f1 <= f2
    requires !ExecRepeat(h, n, b, st, f1).OutOfFuel?
    ensures ExecRepeat(h, n, b, st, f2) == ExecRepeat(h, n, b, st, f1)
    decreases f1, 1, n
  {
    if n > 0 {
      ExecMonotone(h, b, st, f1, f2);
      if Exec(h, b, st, f1).Done? {
        RepeatMonotone(h, n - 1, b, Exec(h, b, st, f1).st, f1, f2);
      }
    }
  }

  lemma {:induction false} ForMonotone(h: Host, x: string, lo: int, hi: int, b: Stmt, st: State, f1: nat, f2: nat)
    requires f1 <= f2
    requires !ExecFor(h, x, lo, hi, b, st, f1).OutOfFuel?
    ensures ExecFor(h, x, lo, hi, b, st, f2) == ExecFor(h, x, lo, hi, b, st, f1)
    decreases f1, 1, hi - lo
  {
    if lo < hi {
      var st0 := st.(locals := st.locals[x := Int(lo)]);
      ExecMonotone(h, b, st0, f1, f2);
      if Exec(h, b, st0, f1).Done? {
        ForMonotone(h, x, lo + 1, hi, b, Exec(h, b, st0, f1).st, f1, f2);
      }
    }
  }

  // ---------------------------------------------------------------------
  // say, set, def, class, import

  /** `say` appends exactly the value of its expression to the output and
      changes nothing else; a failed evaluation writes nothing. */
  lemma SayAppendsOneValue(h: Host, e: string, st: State, fuel: nat)
    requires fuel >= 1
    ensures var o := Exec(h, Say(e), st, fuel);
            var ev := Evaluate(h, st.env.variables, st.locals, e);
            && (ev.Err? ==> o == Raised(ValueError, st))
            && (ev.Ok? ==> o.Done? && o.st.env == st.env && o.st.locals == st.locals
                           && o.st.out == st.out + [ev.value])
  {
  }

  /** `set` writes exactly one entry of the global variables: the named one,
      to the value of the expression. The local scope, the other globals
      and the other tables are unchanged, even when the name is bound
      locally. */
  lemma SetWritesOneGlobal(h: Host, x: string, e: string, st: State, fuel: nat)
    requires fuel >= 1
    ensures var o := Exec(h, Set(x, e), st, fuel);
            var ev := Evaluate(h, st.env.variables, st.locals, e);
            && (ev.Err? ==> o == Raised(ValueError, st))
            && (ev.Ok? ==>
                  && o.Done?
                  && o.st.locals == st.locals
                  && o.st.out == st.out
                  && o.st.env.variables.Keys == st.env.variables.Keys + {x}
                  && o.st.env.variables[x] == ev.value
                  && (forall k :: k in st.env.variables && k != x ==> o.st.env.variables[k] == st.env.variables[k])
                  && o.st.env.(variables := st.env.variables) == st.env)
  {
  }

  /** `def` registers the parameter pieces and the body under the name,
      replacing any earlier definition, and changes nothing else. */
  lemma DefWritesOneFunction(h: Host, f: string, ps: string, b: Stmt, st: State, fuel: nat)
    requires fuel >= 1
    ensures var o := Exec(h, Def(f, ps, b), st, fuel);
            && o.Done?
            && o.st.locals == st.locals && o.st.out == st.out
            && o.st.env.functions.Keys == st.env.functions.Keys + {f}
            && o.st.env.functions[f] == FunDef(Split(ps, ','), b)
            && (forall k :: k in st.env.functions && k != f ==> o.st.env.functions[k] == st.env.functions[k])
            && o.st.env.(functions := st.env.functions) == st.env
  {
  }

  /** `class` registers the body under the name, replacing any earlier
      one, and changes nothing else. */
  lemma ClassWritesOneClass(h: Host, c: string, b: Stmt, st: State, fuel: nat)
    requires fuel >= 1
    ensures var o := Exec(h, Class(c, b), st, fuel);
            && o.Done?
            && o.st.locals == st.locals && o.st.out == st.out
            && o.st.env.classes.Keys == st.env.classes.Keys + {c}
            && o.st.env.classes[c] == b
            && (forall k :: k in st.env.classes && k != c ==> o.st.env.classes[k] == st.env.classes[k])
            && o.st.env.(classes := st.env.classes) == st.env
  {
  }

  /** The last of two definitions of a name wins: defining twice is the
      same as defining only the second time, and repeating one definition
      is the same as making it once. */
  lemma DefLastWins(h: Host, f: string, p1: string, b1: Stmt, p2: string, b2: Stmt, st: State, fuel: nat)
    requires fuel >= 1
    ensures Exec(h, Def(f, p2, b2), Exec(h, Def(f, p1, b1), st, fuel).st, fuel) == Exec(h, Def(f, p2, b2), st, fuel)
  {
    var fs := st.env.functions;
    assert fs[f := FunDef(Split(p1, ','), b1)][f := FunDef(Split(p2, ','), b2)] == fs[f := FunDef(Split(p2, ','), b2)];
  }

  lemma ClassLastWins(h: Host, c: string, b1: Stmt, b2: Stmt, st: State, fuel: nat)
    requires fuel >= 1
    ensures Exec(h, Class(c, b2), Exec(h, Class(c, b1), st, fuel).st, fuel) == Exec(h, Class(c, b2), st, fuel)
  {
    var cs := st.env.classes;
    assert cs[c := b1][c := b2] == cs[c := b2];
  }

  /** `import` records the loader's handle under the name, replacing any
      earlier one and leaving every other entry, the variables, functions,
      classes, locals and output as they were; a module the loader cannot
      provide raises `ImportError` and changes nothing. */
  lemma ImportRecordsHandle(h: Host, m: string, st: State, fuel: nat)
    requires fuel >= 1
    ensures var o := Exec(h, Import(m), st, fuel);
            && (h.load(m).None? ==> o == Raised(ImportError, st))
            && (h.load(m).Some? ==>
                  && o.Done?
                  && o.st.locals == st.locals
                  && o.st.out == st.out
                  && o.st.env.modules.Keys == st.env.modules.Keys + {m}
                  && o.st.env.modules[m] == h.load(m).value
                  && (forall k :: k in st.env.modules && k != m ==> o.st.env.modules[k] == st.env.modules[k])
                  && o.st.env.(modules := st.env.modules) == st.env)
  {
  }

  // ---------------------------------------------------------------------
  // Local scope

  lemma AgreeOutsideNothing(l1: Locals, l2: Locals)
    requires AgreeOutside(l1, l2, {})
    ensures l1 == l2
  {
    assert l1.Keys == l2.Keys;
  }

  /** A statement that contains no `for` (outside the bodies it calls)
      leaves the local scope exactly as it found it, whether it finishes or
      raises. In particular `set`, calls and instantiations never touch the
      caller's scope. */
  lemma NoForKeepsLocals(h: Host, s: Stmt, st: State, fuel: nat)
    requires ForVars(s) == {}
    ensures var o := Exec(h, s, st, fuel);
            !o.OutOfFuel? ==> o.st.locals == st.locals
  {
    var o := Exec(h, s, st, fuel);
    if !o.OutOfFuel? {
      ExecExtends(h, s, st, fuel);
      AgreeOutsideNothing(st.locals, o.st.locals);
    }
  }

  // ---------------------------------------------------------------------
  // repeat

  /** Repeating `m + n` times is repeating `m` times and then `n` times
      from where the first runs left off. */
  lemma {:induction false} RepeatSplit(h: Host, m: nat, n: nat, b: Stmt, st: State, fuel: nat)
    ensures ExecRepeat(h, m + n, b, st, fuel) ==
              match ExecRepeat(h, m, b, st, fuel)
              case Done(s1) => ExecRepeat(h, n, b, s1, fuel)
              case other => other
    decreases m
  {
    if m > 0 {
      match Exec(h, b, st, fuel)
      case Done(s1) =>
        RepeatSplit(h, m - 1, n, b, s1, fuel);
        assert m + n - 1 == (m - 1) + n;
      case _ =>
    }
  }

  /** `repeat 0` runs nothing and changes nothing, whatever the body. */
  lemma RepeatZero(h: Host, b: Stmt, st: State, fuel: nat)
    ensures Exec(h, Repeat(0, b), st, fuel + 1) == Done(st)
  {
  }

  /** One repetition is one run of the body. */
  lemma RepeatOnce(h: Host, b: Stmt, st: State, fuel: nat)
    ensures ExecRepeat(h, 1, b, st, fuel) == Exec(h, b, st, fuel)
  {
  }

  /** Repeating a `say` of a literal `n` times writes the literal's text
      `n` times. */
  lemma {:induction false} RepeatSayLiteral(h: Host, n: nat, q: string, st: State, fuel: nat)
    requires IsLiteral(q)
    requires fuel >= 1
    ensures ExecRepeat(h, n, Say(q), st, fuel) ==
              Done(st.(out := st.out + seq(n, _ => Str(LiteralText(q)))))
    decreases n
  {
    if n > 0 {
      var v := Str(LiteralText(q));
      var s1 := st.(out := st.out + [v]);
      assert Exec(h, Say(q), st, fuel) == Done(s1);
      RepeatSayLiteral(h, n - 1, q, s1, fuel);
      assert s1.out + seq(n - 1, _ => v) == st.out + seq(n, _ => v);
      assert s1.(out := s1.out + seq(n - 1, _ => v)) == st.(out := st.out + seq(n, _ => v));
    }
  }

  // ---------------------------------------------------------------------
  // for

  /** A range text that is not exactly two integer literals raises
      `ValueError` before the body runs or the variable is bound. */
  lemma ForRejectsBadRange(h: Host, x: string, r: string, b: Stmt, st: State, fuel: nat)
    requires ParseRange(r).Err?
    ensures Exec(h, For(x, r, b), st, fuel + 1) == Raised(ValueError, st)
  {
  }

  /** The range text of two rendered integers separated by a comma parses
      back to those integers. */
  lemma RangeRoundTrip(lo: int, hi: int)
    ensures ParseRange(ShowInt(lo) + "," + ShowInt(hi)) == Ok((lo, hi))
  {
    ShowIntHasNoComma(lo);
    ShowIntHasNoComma(hi);
    ParseShowInt(lo);
    ParseShowInt(hi);
    RangePartsParse(ShowInt(lo) + "," + ShowInt(hi), ShowInt(lo), ShowInt(hi));
  }

  /** One iteration: bind the variable to the lower bound, run the body. */
  lemma ForOneIteration(h: Host, x: string, lo: int, b: Stmt, st: State, fuel: nat)
    ensures ExecFor(h, x, lo, lo + 1, b, st, fuel) == Exec(h, b, st.(locals := st.locals[x := Int(lo)]), fuel)
  {
    var st0 := st.(locals := st.locals[x := Int(lo)]);
    match Exec(h, b, st0, fuel)
    case Done(s1) => assert ExecFor(h, x, lo + 1, lo + 1, b, s1, fuel) == Done(s1);
    case _ =>
  }

  /** Iterating over `[lo, hi)` is iterating over `[lo, mid)` and then over
      `[mid, hi)` from where the first part left off. */
  lemma {:induction false} ForSplit(h: Host, x: string, lo: int, mid: int, hi: int, b: Stmt, st: State, fuel: nat)
    requires lo <= mid <= hi
    ensures ExecFor(h, x, lo, hi, b, st, fuel) ==
              match ExecFor(h, x, lo, mid, b, st, fuel)
              case Done(s1) => ExecFor(h, x, mid, hi, b, s1, fuel)
              case other => other
    decreases mid - lo
  {
    if lo < mid {
      var st0 := st.(locals := st.locals[x := Int(lo)]);
      match Exec(h, b, st0, fuel)
      case Done(s1) => ForSplit(h, x, lo + 1, mid, hi, b, s1, fuel);
      case _ =>
    }
  }

  /** The integers `lo`, `lo + 1`, ..., `hi - 1` as values; empty when
      `lo >= hi`. */
  function Ints(lo: int, hi: int): (r: seq<Value>)
    ensures |r| == if lo < hi then hi - lo else 0
    ensures forall k :: 0 <= k < |r| ==> r[k] == Int(lo + k)
  {
    if lo < hi then seq(hi - lo, k => Int(lo + k)) else []
  }

  /** A loop that says its own variable writes `lo`, ..., `hi - 1` in
      ascending order, one per iteration, and leaves the variable bound to
      the last of them; over an empty range it changes nothing. */
  lemma {:induction false} ForSaysItsIndex(h: Host, x: string, lo: int, hi: int, st: State, fuel: nat)
    requires !IsLiteral(x)
    requires fuel >= 1
    ensures ExecFor(h, x, lo, hi, Say(x), st, fuel) ==
              Done(State(st.env, if lo < hi then st.locals[x := Int(hi - 1)] else st.locals, st.out + Ints(lo, hi)))
    decreases hi - lo
  {
    if lo < hi {
      var st0 := st.(locals := st.locals[x := Int(lo)]);
      var s1 := st0.(out := st.out + [Int(lo)]);
      assert Evaluate(h, st0.env.variables, st0.locals, x) == Ok(Int(lo));
      assert Exec(h, Say(x), st0, fuel) == Done(s1);
      ForSaysItsIndex(h, x, lo + 1, hi, s1, fuel);
      assert st.out + [Int(lo)] + Ints(lo + 1, hi) == st.out + Ints(lo, hi);
      if lo + 1 < hi {
        assert st0.locals[x := Int(hi - 1)] == st.locals[x := Int(hi - 1)];
      }
    }
  }

  lemma UnfoldFor(h: Host, x: string, r: string, b: Stmt, st: State, fuel: nat)
    requires ParseRange(r).Ok?
    ensures Exec(h, For(x, r, b), st, fuel + 1) ==
              ExecFor(h, x, ParseRange(r).value.0, ParseRange(r).value.1, b, st, fuel)
  {
  }

  /** After a loop over a non-empty range whose body binds no loop
      variable of the same name, the variable is left bound to `hi - 1` in
      the caller's scope; over an empty range the scope is unchanged. */
  lemma ForLeavesLastIndex(h: Host, x: string, r: string, lo: int, hi: int, b: Stmt, st: State, fuel: nat)
    requires ParseRange(r) == Ok((lo, hi))
    ensures var o := Exec(h, For(x, r, b), st, fuel + 1);
            && (o.Done? && lo < hi && x !in ForVars(b) ==> x in o.st.locals && o.st.locals[x] == Int(hi - 1))
            && (lo >= hi ==> o == Done(st))
  {
    UnfoldFor(h, x, r, b, st, fuel);
    if ExecFor(h, x, lo, hi, b, st, fuel).Done? && lo < hi && x !in ForVars(b) {
      ForBindsLast(h, x, lo, hi, b, st, fuel);
    }
  }

  // ---------------------------------------------------------------------
  // while

  /** A `while` loop that finishes does so on a condition that evaluates
      to a falsy value in the final state. */
  lemma {:induction false} WhileExitsOnFalsy(h: Host, c: string, b: Stmt, st: State, fuel: nat)
    requires Exec(h, While(c, b), st, fuel).Done?
    ensures var s' := Exec(h, While(c, b), st, fuel).st;
            var ev := Evaluate(h, s'.env.variables, s'.locals, c);
            ev.Ok? && !h.truthy(ev.value)
    decreases fuel
  {
    assert Exec(h, While(c, b), st, fuel) == ExecWhile(h, c, b, st, fuel - 1);
    var ev := Evaluate(h, st.env.variables, st.locals, c);
    if ev.Ok? && h.truthy(ev.value) {
      var s1 := Exec(h, b, st, fuel - 1).st;
      assert ExecWhile(h, c, b, st, fuel - 1) == Exec(h, While(c, b), s1, fuel - 1);
      WhileExitsOnFalsy(h, c, b, s1, fuel - 1);
    }
  }

  /** Unrolling: a `while` is an `if` on the same condition with the body
      and no else-branch, followed, when that finishes, by the loop again.
      So the condition is tested before the first run, the body runs only
      after a truthy test, the loop ends at the first falsy one, and an
      error from the condition or the body ends the loop. */
  lemma WhileUnrollsToIf(h: Host, c: string, b: Stmt, st: State, fuel: nat)
    requires fuel >= 1
    ensures Exec(h, While(c, b), st, fuel + 1) ==
              match Exec(h, If(c, b, None), st, fuel + 1)
              case Done(s1) => Exec(h, While(c, b), s1, fuel)
              case other => other
  {
  }

  // ---------------------------------------------------------------------
  // if

  /** The else-branch is consulted only on a falsy condition: otherwise an
      `if` with an else-branch behaves as the same `if` without it. */
  lemma IfElseOnlyWhenFalsy(h: Host, c: string, t: Stmt, e: Stmt, st: State, fuel: nat)
    ensures var ev := Evaluate(h, st.env.variables, st.locals, c);
            && (ev.Ok? && !h.truthy(ev.value) ==> Exec(h, If(c, t, Some(e)), st, fuel + 1) == Exec(h, e, st, fuel))
            && (ev.Ok? && !h.truthy(ev.value) ==> Exec(h, If(c, t, None), st, fuel + 1) == Done(st))
            && (ev.Err? || h.truthy(ev.value) ==>
                  Exec(h, If(c, t, Some(e)), st, fuel + 1) == Exec(h, If(c, t, None), st, fuel + 1))
            && (ev.Ok? && h.truthy(ev.value) ==> Exec(h, If(c, t, None), st, fuel + 1) == Exec(h, t, st, fuel))
            && (ev.Err? ==> Exec(h, If(c, t, None), st, fuel + 1) == Raised(ValueError, st))
  {
  }

  /** With the same statement in both branches, only whether the condition
      evaluates matters, not its truth value. */
  lemma IfSameBranches(h: Host, c: string, t: Stmt, st: State, fuel: nat)
    requires Evaluate(h, st.env.variables, st.locals, c).Ok?
    ensures Exec(h, If(c, t, Some(t)), st, fuel + 1) == Exec(h, t, st, fuel)
  {
  }

  // ---------------------------------------------------------------------
  // Calls and instantiation

  /** Calling an undefined function raises `NameError`; a defined one
      called with a different number of comma-separated arguments than it
      has parameters raises `ValueError`; in both cases nothing changes. */
  lemma CallChecks(h: Host, f: string, a: string, st: State, fuel: nat)
    ensures f !in st.env.functions ==> Exec(h, Call(f, a), st, fuel + 1) == Raised(NameError, st)
    ensures f in st.env.functions && |st.env.functions[f].params| != |Split(a, ',')| ==>
              Exec(h, Call(f, a), st, fuel + 1) == Raised(ValueError, st)
  {
  }

  /** A call that passes its checks runs the body in the call's own scope
      (the parameters only), from the caller's environment and output; the
      caller's scope is restored afterwards whether the body finishes or
      raises. */
  lemma CallRunsBodyInFreshScope(h: Host, f: string, a: string, st: State, fuel: nat)
    requires f in st.env.functions
    requires |st.env.functions[f].params| == |Split(a, ',')|
    ensures CallScope(h, st, st.env.functions[f].params, Split(a, ',')).Err? ==>
              Exec(h, Call(f, a), st, fuel + 1) == Raised(ValueError, st)
    ensures CallScope(h, st, st.env.functions[f].params, Split(a, ',')).Ok? ==>
              Exec(h, Call(f, a), st, fuel + 1) ==
              Restore(Exec(h, st.env.functions[f].body,
                           State(st.env, CallScope(h, st, st.env.functions[f].params, Split(a, ',')).value, st.out),
                           fuel),
                      st.locals)
  {
    UnfoldCall(h, f, a, st, fuel);
    CallScopeSpec(h, st, st.env.functions[f].params, Split(a, ','));
  }

  lemma UnfoldCall(h: Host, f: string, a: string, st: State, fuel: nat)
    ensures Exec(h, Call(f, a), st, fuel + 1) == ExecCall(h, f, a, st, fuel)
  {
  }

  lemma {:induction false} EvalArgsCongruence(h: Host, g: map<string, Value>, l1: Locals, l2: Locals, es: seq<string>)
    requires forall i :: 0 <= i < |es| ==> Evaluate(h, g, l1, es[i]) == Evaluate(h, g, l2, es[i])
    ensures EvalArgs(h, g, l1, es) == EvalArgs(h, g, l2, es)
    decreases |es|
  {
    if es != [] {
      assert forall i :: 1 <= i < |es| ==> es[1..][i - 1] == es[i];
      EvalArgsCongruence(h, g, l1, l2, es[1..]);
    }
  }

  /** Calls do not close over the caller: two callers with the same
      environment and output whose scopes give the arguments the same
      values get the same outcome, up to their own restored scope. */
  lemma CallIgnoresCallerLocals(h: Host, f: string, a: string, st1: State, st2: State, fuel: nat)
    requires st1.env == st2.env && st1.out == st2.out
    requires EvalArgs(h, st1.env.variables, st1.locals, StripAll(Split(a, ','))) ==
             EvalArgs(h, st2.env.variables, st2.locals, StripAll(Split(a, ',')))
    ensures Restore(Exec(h, Call(f, a), st1, fuel + 1), st2.locals) == Exec(h, Call(f, a), st2, fuel + 1)
  {
    UnfoldCall(h, f, a, st1, fuel);
    UnfoldCall(h, f, a, st2, fuel);
    ExecCallIgnoresCallerLocals(h, f, a, st1, st2, fuel);
  }

  lemma ExecCallIgnoresCallerLocals(h: Host, f: string, a: string, st1: State, st2: State, fuel: nat)
    requires st1.env == st2.env && st1.out == st2.out
    requires EvalArgs(h, st1.env.variables, st1.locals, StripAll(Split(a, ','))) ==
             EvalArgs(h, st2.env.variables, st2.locals, StripAll(Split(a, ',')))
    ensures Restore(ExecCall(h, f, a, st1, fuel), st2.locals) == ExecCall(h, f, a, st2, fuel)
  {
    if f in st1.env.functions && |st1.env.functions[f].params| == |Split(a, ',')| {
      var fd := st1.env.functions[f];
      var args := Split(a, ',');
      assert CallScope(h, st1, fd.params, args) == CallScope(h, st2, fd.params, args);
      if CallScope(h, st1, fd.params, args).Ok? {
        RunInScopeIgnoresCallerLocals(h, fd.body, CallScope(h, st1, fd.params, args).value, st1, st2, fuel);
      }
    }
  }

  /** A body run in a scope of its own depends on the caller only through
      the environment and the output. */
  lemma RunInScopeIgnoresCallerLocals(h: Host, body: Stmt, scope: Locals, st1: State, st2: State, fuel: nat)
    requires st1.env == st2.env && st1.out == st2.out
    ensures Restore(RunInScope(h, body, scope, st1, fuel), st2.locals) == RunInScope(h, body, scope, st2, fuel)
  {
    assert State(st1.env, scope, st1.out) == State(st2.env, scope, st2.out);
  }

  /** Instantiating an undefined class raises `NameError`. Otherwise the
      class body runs in a scope whose names are `self.` followed by each
      argument's own stripped text, bound to that text's value in the
      caller's scope; the caller's scope is restored afterwards. */
  lemma NewRunsBodyInSelfScope(h: Host, c: string, a: string, st: State, fuel: nat)
    ensures c !in st.env.classes ==> Exec(h, New(c, a), st, fuel + 1) == Raised(NameError, st)
    ensures c in st.env.classes ==>
              var sc := NewScope(h, st, Split(a, ','));
              && (sc.Err? ==> Exec(h, New(c, a), st, fuel + 1) == Raised(ValueError, st))
              && (sc.Ok? ==>
                    Exec(h, New(c, a), st, fuel + 1) ==
                    Restore(Exec(h, st.env.classes[c], State(st.env, sc.value, st.out), fuel), st.locals))
  {
    UnfoldNew(h, c, a, st, fuel);
    if c in st.env.classes {
      var sc := NewScope(h, st, Split(a, ','));
      NewScopeSpec(h, st, Split(a, ','));
      if sc.Ok? {
        assert ExecNew(h, c, a, st, fuel) == RunInScope(h, st.env.classes[c], sc.value, st, fuel);
      } else {
        assert ExecNew(h, c, a, st, fuel) == Raised(sc.kind, st);
      }
    }
  }

  lemma UnfoldNew(h: Host, c: string, a: string, st: State, fuel: nat)
    ensures Exec(h, New(c, a), st, fuel + 1) == ExecNew(h, c, a, st, fuel)
  {
  }

  /** An empty argument list is one empty argument: `new C()` evaluates the
      empty expression for the key `self.`, so it raises `ValueError`
      before the class body runs. */
  lemma EmptyArgumentsFailNew(h: Host, c: string, st: State, fuel: nat)
    requires c in st.env.classes
    requires "" !in st.env.variables && "" !in st.locals
    requires h.eval("", Merged(st.env.variables, st.locals)).None?
    ensures Exec(h, New(c, ""), st, fuel + 1) == Raised(ValueError, st)
  {
  }

  /** Likewise `f()` raises `ValueError` whatever `f`'s parameters: with
      other than one parameter the count check fails, and with one (as for
      `def f()`, whose parameter text is one empty piece) the empty
      argument fails to evaluate. */
  lemma EmptyArgumentsFailCall(h: Host, f: string, st: State, fuel: nat)
    requires f in st.env.functions
    requires "" !in st.env.variables && "" !in st.locals
    requires h.eval("", Merged(st.env.variables, st.locals)).None?
    ensures Exec(h, Call(f, ""), st, fuel + 1) == Raised(ValueError, st)
  {
  }

  // ---------------------------------------------------------------------
  // try / except

  /** The handler runs exactly when the body raised, from the state the
      failure left, and its outcome is the `try`'s; a body that finishes is
      the whole effect. So the `try` raises only when the handler raises
      too, with the handler's error. */
  lemma TryRunsHandler(h: Host, b: Stmt, hd: Stmt, st: State, fuel: nat)
    ensures var ob := Exec(h, b, st, fuel);
            var o := Exec(h, Try(b, hd), st, fuel + 1);
            && (ob.Done? ==> o == ob)
            && (ob.Raised? ==> o == Exec(h, hd, ob.st, fuel))
            && (ob.OutOfFuel? ==> o.OutOfFuel?)
  {
  }

  /** Nothing is rolled back: whatever the failed body did before raising
      (output written, entries added, locals rebound) is still there after
      the handler, which only adds to it. */
  lemma TryKeepsEffects(h: Host, b: Stmt, hd: Stmt, st: State, fuel: nat)
    ensures var ob := Exec(h, b, st, fuel);
            var o := Exec(h, Try(b, hd), st, fuel + 1);
            && (ob.Raised? ==> Extends(st, ob.st, ForVars(b)))
            && (ob.Raised? && !o.OutOfFuel? ==> Extends(ob.st, o.st, ForVars(hd)) && ob.st.out <= o.st.out)
  {
    var ob := Exec(h, b, st, fuel);
    assert Exec(h, Try(b, hd), st, fuel + 1) == ExecTry(h, b, hd, st, fuel);
    if ob.Raised? {
      ExecExtends(h, b, st, fuel);
      if !Exec(h, hd, ob.st, fuel).OutOfFuel? {
        ExecExtends(h, hd, ob.st, fuel);
      }
    }
  }
}

=== FILE: text.dfy ===
/** Text primitives the interpreter takes from its host language: stripping
    whitespace, splitting on a separator character, and parsing an integer
    literal the way the host's `int(...)` conversion does. */
module Text {
  import opened Base

  /** The characters the host's `isspace` accepts, which is exactly the set
      `strip()` removes from both ends of a line. */
  predicate IsSpace(c: char) {
    || ('\t' <= c <= '\r')
    || ('\U{1C}' <= c <= '\U{1F}')
    || c == ' ' || c == '\U{85}' || c == '\U{A0}' || c == '\U{1680}'
    || ('\U{2000}' <= c <= '\U{200A}')
    || c == '\U{2028}' || c == '\U{2029}' || c == '\U{202F}' || c == '\U{205F}'
    || c == '\U{3000}'
  }

  predicate AllSpace(s: string) {
    forall i :: 0 <= i < |s| ==> IsSpace(s[i])
  }

  /** A string with nothing `strip()` would remove. */
  predicate Trimmed(s: string) {
    s == [] || (!IsSpace(s[0]) && !IsSpace(s[|s| - 1]))
  }

  /** Drops the leading whitespace of `s`. */
  function StripLeft(s: string): string
    decreases |s|
  {
    if s == [] || !IsSpace(s[0]) then s else StripLeft(s[1..])
  }

  /** The left strip is the suffix left after a run of whitespace, and it
      does not start with whitespace. */
  lemma {:induction false} StripLeftSpec(s: string)
    ensures |StripLeft(s)| <= |s| && StripLeft(s) == s[|s| - |StripLeft(s)|..]
    ensures AllSpace(s[..|s| - |StripLeft(s)|])
    ensures StripLeft(s) == [] || !IsSpace(StripLeft(s)[0])
    decreases |s|
  {
    if s != [] && IsSpace(s[0]) {
      var t := s[1..];
      StripLeftSpec(t);
      var r := StripLeft(t);
      assert StripLeft(s) == r;
      assert t[|t| - |r|..] == s[|s| - |r|..];
      assert s[..|s| - |r|] == [s[0]] + t[..|t| - |r|];
    }
  }

  /** Drops the trailing whitespace of `s`. */
  function StripRight(s: string): string
    decreases |s|
  {
    if s == [] || !IsSpace(s[|s| - 1]) then s else StripRight(s[..|s| - 1])
  }

  /** The right strip is the prefix left before a run of whitespace, and
      it does not end with whitespace. */
  lemma {:induction false} StripRightSpec(s: string)
    ensures |StripRight(s)| <= |s| && StripRight(s) == s[..|StripRight(s)|]
    ensures AllSpace(s[|StripRight(s)|..])
    ensures StripRight(s) == [] || !IsSpace(StripRight(s)[|StripRight(s)| - 1])
    decreases |s|
  {
    if s != [] && IsSpace(s[|s| - 1]) {
      var t := s[..|s| - 1];
      StripRightSpec(t);
      var r := StripRight(t);
      assert StripRight(s) == r;
      assert t[..|r|] == s[..|r|];
      assert s[|r|..] == t[|r|..] + [s[|s| - 1]];
    }
  }

  /** The host's `s.strip()`: the infix of `s` left after removing all
      whitespace at both ends. */
  function Strip(s: string): (r: string)
    ensures Trimmed(r)
    ensures |r| <= |s|
    ensures Trimmed(s) ==> r == s
  {
    StripLeftSpec(s);
    StripRightSpec(StripLeft(s));
    assert StripRight(StripLeft(s)) != [] ==> StripRight(StripLeft(s))[0] == StripLeft(s)[0];
    StripRight(StripLeft(s))
  }

  /** Stripping ignores any whitespace padding put around a string. */
  lemma StripIgnoresPadding(pre: string, s: string, post: string)
    requires AllSpace(pre) && AllSpace(post)
    ensures Strip(pre + s + post) == Strip(s)
  {
    assert pre + s + post == pre + (s + post);
    StripLeftSkipsSpace(pre, s + post);
    assert StripLeft(pre + s + post) == StripLeft(s + post);
    StripLeftAppend(s, post);
    var l := StripLeft(s);
    if l != [] {
      StripRightSkipsSpace(l, post);
      assert StripRight(StripLeft(pre + s + post)) == StripRight(l);
    } else {
      assert StripRight(StripLeft(pre + s + post)) == StripRight(l);
    }
  }

  lemma {:induction false} StripLeftSkipsSpace(pre: string, s: string)
    requires AllSpace(pre)
    ensures StripLeft(pre + s) == StripLeft(s)
    decreases |pre|
  {
    if pre != [] {
      assert (pre + s)[1..] == pre[1..] + s;
      StripLeftSkipsSpace(pre[1..], s);
    } else {
      assert pre + s == s;
    }
  }

  lemma {:induction false} StripRightSkipsSpace(s: string, post: string)
    requires AllSpace(post)
    ensures StripRight(s + post) == StripRight(s)
    decreases |post|
  {
    if post != [] {
      var p' := post[..|post| - 1];
      assert (s + post)[..|s + post| - 1] == s + p';
      StripRightSkipsSpace(s, p');
    } else {
      assert s + post == s;
    }
  }

  /** Trailing whitespace survives the left strip unless nothing else does. */
  lemma {:induction false} StripLeftAppend(s: string, post: string)
    requires AllSpace(post)
    ensures StripLeft(s) != [] ==> StripLeft(s + post) == StripLeft(s) + post
    ensures StripLeft(s) == [] ==> StripLeft(s + post) == []
    decreases |s|
  {
    if s == [] {
      assert s + post == post;
      AllSpaceStripsToNothing(post);
    } else if IsSpace(s[0]) {
      assert (s + post)[1..] == s[1..] + post;
      StripLeftAppend(s[1..], post);
    }
  }

  lemma {:induction false} AllSpaceStripsToNothing(s: string)
    requires AllSpace(s)
    ensures StripLeft(s) == []
    decreases |s|
  {
    if s != [] {
      AllSpaceStripsToNothing(s[1..]);
    }
  }

  /** Stripping twice is stripping once. */
  lemma StripIdempotent(s: string)
    ensures Strip(Strip(s)) == Strip(s)
  {
  }

  // ---------------------------------------------------------------------
  // Splitting on a separator, as the host's `s.split(sep)` with one
  // explicit separator character: always at least one piece, empty
  // pieces kept.

  function Split(s: string, sep: char): (parts: seq<string>)
    ensures |parts| >= 1
    decreases |s|
  {
    if s == [] then [""]
    else
      var rest := Split(s[1..], sep);
      if s[0] == sep then [""] + rest
      else [[s[0]] + rest[0]] + rest[1..]
  }

  /** No piece of a split holds the separator. */
  lemma {:induction false} SplitDropsSeparator(s: string, sep: char)
    ensures forall i :: 0 <= i < |Split(s, sep)| ==> sep !in Split(s, sep)[i]
    decreases |s|
  {
    if s != [] {
      var rest := Split(s[1..], sep);
      SplitDropsSeparator(s[1..], sep);
      if s[0] == sep {
        assert Split(s, sep) == [""] + rest;
      } else {
        var parts := [[s[0]] + rest[0]] + rest[1..];
        assert Split(s, sep) == parts;
        assert sep !in rest[0];
        forall i | 0 <= i < |parts|
          ensures sep !in parts[i]
        {
          if i > 0 {
            assert parts[i] == rest[i];
          }
        }
      }
    }
  }

  /** The inverse of `Split`: the pieces put back together with the separator. */
  function Join(parts: seq<string>, sep: char): string
    requires |parts| >= 1
    decreases |parts|
  {
    if |parts| == 1 then parts[0] else parts[0] + [sep] + Join(parts[1..], sep)
  }

  /** Splitting loses nothing: joining the pieces gives the text back. */
  lemma {:induction false} JoinSplit(s: string, sep: char)
    ensures Join(Split(s, sep), sep) == s
    decreases |s|
  {
    if s != [] {
      var rest := Split(s[1..], sep);
      JoinSplit(s[1..], sep);
      if s[0] == sep {
        assert Split(s, sep) == [""] + rest;
        assert ([""] + rest)[1..] == rest;
      } else {
        var parts := [[s[0]] + rest[0]] + rest[1..];
        assert Split(s, sep) == parts;
        if |rest| == 1 {
          assert Join(parts, sep) == [s[0]] + rest[0];
        } else {
          assert parts[1..] == rest[1..];
          assert Join(parts, sep) == [s[0]] + rest[0] + [sep] + Join(rest[1..], sep);
        }
        assert [s[0]] + s[1..] == s;
      }
    }
  }

  /** A text without the separator is one piece. */
  lemma {:induction false} SplitWithoutSeparator(s: string, sep: char)
    requires sep !in s
    ensures Split(s, sep) == [s]
    decreases |s|
  {
    if s != [] {
      assert sep !in s[1..];
      SplitWithoutSeparator(s[1..], sep);
      assert [s[0]] + s[1..] == s;
    }
  }

  /** Splitting a text that starts with the separator opens a new, empty
      first piece. */
  lemma SplitConsSeparator(s: string, sep: char)
    ensures Split([sep] + s, sep) == [""] + Split(s, sep)
  {
    assert ([sep] + s)[1..] == s;
  }

  /** Splitting a text that starts with any other character puts that
      character in front of the first piece. */
  lemma SplitConsOther(c: char, s: string, sep: char)
    requires c != sep
    ensures Split([c] + s, sep) == [[c] + Split(s, sep)[0]] + Split(s, sep)[1..]
  {
    assert ([c] + s)[1..] == s;
  }

  /** One separator between two texts splits exactly there. */
  lemma {:induction false} SplitAtSeparator(x: string, y: string, sep: char)
    ensures Split(x + [sep] + y, sep) == Split(x, sep) + Split(y, sep)
    decreases |x|
  {
    if x == [] {
      assert x + [sep] + y == [sep] + y;
      SplitConsSeparator(y, sep);
    } else {
      var t := x[1..];
      assert x == [x[0]] + t;
      assert x + [sep] + y == [x[0]] + (t + [sep] + y);
      SplitAtSeparator(t, y, sep);
      if x[0] == sep {
        SplitConsSeparator(t + [sep] + y, sep);
        SplitConsSeparator(t, sep);
        ConsEmptyPiece(Split(t, sep), Split(y, sep));
      } else {
        SplitConsOther(x[0], t + [sep] + y, sep);
        SplitConsOther(x[0], t, sep);
        ConsFirstPiece(x[0], Split(t, sep), Split(y, sep));
      }
    }
  }

  lemma ConsEmptyPiece(rest: seq<string>, ys: seq<string>)
    ensures [""] + (rest + ys) == ([""] + rest) + ys
  {
  }

  lemma ConsFirstPiece(c: char, rest: seq<string>, ys: seq<string>)
    requires |rest| >= 1
    ensures [[c] + (rest + ys)[0]] + (rest + ys)[1..] == ([[c] + rest[0]] + rest[1..]) + ys
  {
    assert (rest + ys)[1..] == rest[1..] + ys;
  }

  /** Joining separator-free pieces and splitting again gives the pieces back. */
  lemma {:induction false} SplitJoin(parts: seq<string>, sep: char)
    requires |parts| >= 1
    requires forall i :: 0 <= i < |parts| ==> sep !in parts[i]
    ensures Split(Join(parts, sep), sep) == parts
    decreases |parts|
  {
    SplitWithoutSeparator(parts[0], sep);
    if |parts| > 1 {
      SplitJoin(parts[1..], sep);
      SplitAtSeparator(parts[0], Join(parts[1..], sep), sep);
      assert [parts[0]] + parts[1..] == parts;
    }
  }

  // ---------------------------------------------------------------------
  // Integer literals, as accepted by the host's `int(text)` in base 10:
  // surrounding whitespace, an optional sign, then ASCII digits in which
  // single underscores may separate two digits.

  predicate IsDigit(c: char) {
    '0' <= c <= '9'
  }

  function DigitValue(c: char): nat
    requires IsDigit(c)
  {
    (c as int) - ('0' as int)
  }

  function DigitChar(d: nat): (c: char)
    requires d < 10
    ensures IsDigit(c) && DigitValue(c) == d
  {
    ('0' as int + d) as char
  }

  /** The value of a run of digits with optional single underscores between
      digits; `None` for anything else (empty, a stray character, an
      underscore at either end or two in a row). */
  function DigitsValue(s: string): Option<nat>
    decreases |s|
  {
    if |s| == 0 || !IsDigit(s[|s| - 1]) then None
    else if |s| == 1 then Some(DigitValue(s[0]))
    else
      var init := s[..|s| - 1];
      var lead := if init[|init| - 1] == '_' then init[..|init| - 1] else init;
      match DigitsValue(lead)
      case None => None
      case Some(v) => Some(v * 10 + DigitValue(s[|s| - 1]))
  }

  /** The whitespace `int(text)` skips around a literal. On a string the
      host first turns every non-ASCII `isspace` character into a space but
      keeps ASCII as it is, and then skips only the ASCII whitespace; so the
      four information separators U+001C..U+001F, which `strip()` removes,
      are kept here and make the literal fail. */
  predicate IntSpace(c: char) {
    IsSpace(c) && !('\U{1C}' <= c <= '\U{1F}')
  }

  function IntStripLeft(s: string): string
    decreases |s|
  {
    if s == [] || !IntSpace(s[0]) then s else IntStripLeft(s[1..])
  }

  function IntStripRight(s: string): string
    decreases |s|
  {
    if s == [] || !IntSpace(s[|s| - 1]) then s else IntStripRight(s[..|s| - 1])
  }

  /** The text `int(text)` reads as a literal. */
  function IntStrip(s: string): string {
    IntStripRight(IntStripLeft(s))
  }

  /** The host's `int(text)`; `None` where it raises. */
  function ParseInt(s: string): Option<int> {
    ParseSigned(IntStrip(s))
  }

  /** An information separator before a literal is not skipped, so the
      literal is rejected although `strip()` would remove the separator. */
  lemma ParseIntKeepsSeparator()
    ensures Strip("\U{1C}0") == "0" && ParseSigned("0") == Some(0)
    ensures ParseInt("\U{1C}0") == None
  {
  }

  /** An optional sign, then digits. */
  function ParseSigned(t: string): Option<int> {
    if |t| > 0 && (t[0] == '-' || t[0] == '+') then
      match DigitsValue(t[1..])
      case None => None
      case Some(n) => if t[0] == '-' then Some(-(n as int)) else Some(n as int)
    else
      match DigitsValue(t)
      case None => None
      case Some(n) => Some(n)
  }

  /** Decimal digits of a natural number, most significant first. */
  function ShowNat(n: nat): (s: string)
    ensures |s| >= 1
    ensures forall i :: 0 <= i < |s| ==> IsDigit(s[i])
    decreases n
  {
    if n < 10 then [DigitChar(n)] else ShowNat(n / 10) + [DigitChar(n % 10)]
  }

  /** The usual decimal rendering of an integer. */
  function ShowInt(n: int): string {
    if n < 0 then "-" + ShowNat(-n) else ShowNat(n)
  }

  lemma {:induction false} DigitsValueShowNat(n: nat)
    ensures DigitsValue(ShowNat(n)) == Some(n)
    decreases n
  {
    if n >= 10 {
      var s := ShowNat(n);
      var p := ShowNat(n / 10);
      assert s == p + [DigitChar(n % 10)];
      assert s[..|s| - 1] == p;
      assert IsDigit(p[|p| - 1]);
      DigitsValueShowNat(n / 10);
    }
  }

  /** Reading back a rendered integer gives the integer. */
  lemma ParseShowInt(n: int)
    ensures ParseInt(ShowInt(n)) == Some(n)
  {
    ShowIntTrimmed(n);
    if n < 0 {
      ParseShowNegative(-n);
    } else {
      ParseShowNat(n);
    }
  }

  lemma ShowIntTrimmed(n: int)
    ensures IntStrip(ShowInt(n)) == ShowInt(n)
  {
    var s := ShowInt(n);
    if n < 0 {
      ShowNegativeTrimmed(-n);
    } else {
      var d := ShowNat(n);
      assert IsDigit(d[0]) && IsDigit(d[|d| - 1]);
    }
    assert !IntSpace(s[0]) && !IntSpace(s[|s| - 1]);
    assert IntStripLeft(s) == s;
  }

  lemma ParseShowNat(n: nat)
    ensures ParseSigned(ShowNat(n)) == Some(n)
  {
    var d := ShowNat(n);
    assert IsDigit(d[0]);
    DigitsValueShowNat(n);
  }

  lemma ShowNegativeTrimmed(m: nat)
    ensures Trimmed("-" + ShowNat(m))
  {
    var d := ShowNat(m);
    var s := "-" + d;
    assert s[|s| - 1] == d[|d| - 1];
    assert IsDigit(d[|d| - 1]);
  }

  lemma ParseShowNegative(m: nat)
    ensures ParseSigned("-" + ShowNat(m)) == Some(-(m as int))
  {
    var d := ShowNat(m);
    assert ("-" + d)[1..] == d;
    DigitsValueShowNat(m);
  }

  predicate AllIntSpace(s: string) {
    forall i :: 0 <= i < |s| ==> IntSpace(s[i])
  }

  lemma {:induction false} IntStripLeftSkips(pre: string, t: string)
    requires AllIntSpace(pre)
    requires t != [] && !IntSpace(t[0])
    ensures IntStripLeft(pre + t) == t
    decreases |pre|
  {
    if pre != [] {
      assert (pre + t)[1..] == pre[1..] + t;
      IntStripLeftSkips(pre[1..], t);
    } else {
      assert pre + t == t;
    }
  }

  lemma {:induction false} IntStripRightSkips(t: string, post: string)
    requires AllIntSpace(post)
    requires t != [] && !IntSpace(t[|t| - 1])
    ensures IntStripRight(t + post) == t
    decreases |post|
  {
    if post != [] {
      var p' := post[..|post| - 1];
      assert (t + post)[..|t + post| - 1] == t + p';
      IntStripRightSkips(t, p');
    } else {
      assert t + post == t;
    }
  }

  /** A rendered integer padded with the whitespace `int(...)` skips, as in
      the second bound of `range(0, 3)`, still reads back as the integer. */
  lemma ParseIntIgnoresPadding(pre: string, n: int, post: string)
    requires AllIntSpace(pre) && AllIntSpace(post)
    ensures ParseInt(pre + ShowInt(n) + post) == Some(n)
  {
    var t := ShowInt(n);
    ShowIntTrimmed(n);
    assert t == IntStrip(t);
    assert !IntSpace(t[0]) && !IntSpace(t[|t| - 1]);
    IntStripLeftSkips(pre, t + post);
    assert pre + t + post == pre + (t + post);
    IntStripRightSkips(t, post);
    ParseShowInt(n);
  }

  /** A rendered integer never contains the separator of a range. */
  lemma ShowIntHasNoComma(n: int)
    ensures ',' !in ShowInt(n)
  {
    if n < 0 {
      assert ShowInt(n) == "-" + ShowNat(-n);
    }
  }
}
